=== FILE: README.md ===
# Scout platform core, in Dafny

A model of the data engine behind the football scouting application in
`app.py`:

- **Loading.** The player table is loaded once. Its header is trimmed, and
  each birth date in `DD/MM/YYYY` form is parsed. A row whose birth date
  does not parse is dropped. Every remaining row gains an integer `age`
  and a coarse `general_position`: Goleiro, Defensor, Meio-campista,
  Atacante or Outro. The group comes from the first role listed in the
  free-text `position` field.
- **Attribute catalog.** This is the list of columns that get a range
  slider. A column is listed when its name starts with one of ten category
  prefixes and pandas considers its dtype numeric.
- **Scout search.** The search keeps the rows that meet all of the
  following:
  - an inclusive age range;
  - optional nationality and position selections, each matched as a
    literal substring, any of them;
  - an optional set of clubs;
  - one inclusive range per catalogued attribute.

  Rows keep their table order.
- **Pagination.** The results are shown ten per page. "Previous" and
  "Next" are disabled at the ends. A new search or a clear resets the
  page index.
- **Rankings.** An attribute is chosen among the plain numeric columns.
  The table is narrowed to rows whose `Playing_Time_minutes` value is at
  least a threshold, when that column exists. The page then shows the
  first N rows in the order pandas' `nlargest` lists them:
  - rows with a value come first, larger values before smaller ones;
  - equal values are listed by earlier row;
  - rows without a value come last, in row order. They fill the list
    only when fewer than N rows have a value.

  It also shows, per position group, the number of values and the
  smallest and largest value.

Modules follow the program's structure:

| file | module | models |
|---|---|---|
| `wrappers.dfy` | `Wrappers` | `Option` and `Result` |
| `seqs.dfy` | `Seqs` | boolean-mask row selection (`df[mask]`), subsequences, minimum and maximum |
| `sorting.dfy` | `Sorting` | insertion sort by a total preorder, shared by the string sort and the ranking order |
| `text.dfy` | `Text` | `str.strip()`, the first field of `split(',')`, substring search, and Python's string order and `sorted()` |
| `players.dfy` | `Players` | records, rows and columns, and the `load_data` derivation |
| `catalog.dfy` | `Catalog` | the category table and the slider-column catalog |
| `search.dfy` | `Search` | the search handler |
| `pagination.dfy` | `Pagination` | page slicing and the page index kept in the session |
| `ranking.dfy` | `Ranking` | the rankable columns, the minutes threshold, the top N and the per-position statistics |
| `examples.dfy` | `Examples` | worked cases for age and paging |

Representation choices:

- A cell that pandas holds as NaN is a missing key in a record's `stats`
  map, or `None` for the text fields.
- A date is a day number.
- The current time is a parameter: `today`, a day number.
- Column dtypes are reduced to three kinds: numeric, boolean and other.
  Two pandas tests disagree on booleans:
  - `is_numeric_dtype`, which the catalog uses, accepts them;
  - `select_dtypes(include='number')`, which the rankings use, does not.

## Model

| member | source | states |
|---|---|---|
| Text.Trim | app.py:29 | the stripped string neither starts nor ends with whitespace, and a string made only of whitespace strips to the empty string |
| Text.TrimIsCore | app.py:29 | a slice bordered only by whitespace, whose own first and last characters are not whitespace, is exactly what stripping returns |
| Text.TrimIdempotent | app.py:29 | stripping a stripped string changes nothing |
| Text.SurroundingSpaceIgnored | app.py:41 | whitespace added around a string does not change its stripped form |
| Text.FirstField | app.py:41 | the first field of `split(',')` is a comma-free prefix of the string, followed by a comma or the string's end |
| Text.FirstFieldIgnoresRest | app.py:41 | whatever follows the first comma does not affect the first field |
| Text.ContainsAt | app.py:137-138 | an occurrence of the needle at any position makes the literal search succeed |
| Text.ContainsHasOccurrence | app.py:137-138 | a successful literal search has a position where the needle occurs |
| Sorting.Insert | app.py:238 | inserting into a sorted list keeps it sorted and adds exactly the new element |
| Sorting.SortBy | app.py:238 | sorting returns a permutation of its input that is in order |
| Text.CodePointOrderIsTotal | app.py:238 | Python's string order compares any two strings and chains |
| Text.SortStrings | app.py:238 | `sorted()` returns a permutation of its input that is ordered by code points |
| Players.GeneralPositionOf | app.py:35-41 | the group is `Outro` exactly when the position is missing or its stripped first role is not in the sixteen-role table; otherwise it is the table's group for that role |
| Players.TableHasNoOther | app.py:35-40 | no role in the table maps to `Outro` |
| Players.OnlyFirstRoleCounts | app.py:41 | roles listed after the first comma never change the group |
| Players.PlainRole | app.py:41 | a role written without commas or surrounding whitespace is looked up as written |
| Players.PaddingIgnored | app.py:41 | whitespace around the first role does not change the group |
| Players.AgeFromDays | app.py:31-33 | for a non-negative day count, the age is the largest whole number of 365.25-day years that fit; for a negative count it is the truncation toward zero |
| Players.DerivePlayers | app.py:30-41 | the derived rows are the dated records in table order, each with the age and group its own record determines |
| Players.DerivedRows | app.py:30-32 | a record has a derived row exactly when its birth date parsed, and the order is kept |
| Players.TrimHeader | app.py:29 | each column keeps its position and dtype, and its name is stripped |
| Players.SetColumn | app.py:30-41 | assigning a column replaces one with the same name in place, or appends a new one; other columns are unchanged |
| Players.AssignColumns | app.py:30-41 | after the three assignments every header column keeps its place and name, a column that is not `birth_date`, `age` or `general_position` is unchanged, those three carry the date, number and label dtypes, and at most `age` and `general_position` are appended |
| Players.Load | app.py:29-41 | loading fails exactly when the trimmed header lacks `birth_date` or `position`, naming `birth_date` when it is missing and `position` otherwise; on success the table keeps every spreadsheet column in place under its stripped name, with its dtype unless `load_data` reassigns it, gains `age` and `general_position`, and holds exactly the dated records, in order, each with the age and group its record determines at `today` |
| Catalog.CategoryColumns | app.py:116 | a category lists exactly the numeric columns whose names start with its prefix, in header order |
| Catalog.PrefixesIndependent | app.py:91-96 | no category prefix is a prefix of another |
| Catalog.CategoryIndexOf | app.py:99-104 | a column name starting with a category's prefix belongs to that category and to no other |
| Catalog.StatColumns | app.py:99-104 | the slider catalog holds exactly the numeric columns that fall under some category |
| Catalog.LoadKeepsStatColumn | app.py:99-104 | in the header a successful load produces, a numeric spreadsheet column that loading does not reassign is in the slider catalog exactly when its name falls under a category |
| Catalog.StatColumnsOrder | app.py:99-104 | the catalog lists the categories in display order, and picking out one category gives exactly that category's columns, in header order |
| Search.RunSearch | app.py:132-146 | the handler's successive masks return exactly the rows of the table that meet the combined AND of all criteria, in table order |
| Search.SearchIsOneFilter | app.py:136-146 | the age, nationality, position, club and range masks, applied in sequence, equal one filter by the combined predicate |
| Search.NationalityStage | app.py:136-137 | applying the nationality mask only when a selection exists is the same as an always-true criterion for an empty selection |
| Search.PositionStage | app.py:138 | the same holds for the position mask |
| Search.ClubStage | app.py:139 | the same holds for the club mask |
| Search.RangeStage | app.py:142-146 | the attribute ranges applied after the identification masks complete the combined predicate |
| Search.ApplyRanges | app.py:142-146 | definition: the loop over the slider columns, narrowing the rows by each column that has a range; its meaning is stated by the next row |
| Search.ApplyRangesIsOneFilter | app.py:142-146 | the per-column range filters, one after another, equal one filter by all ranges together |
| Search.OptionalMask | app.py:137-139 | a mask applied only for a non-empty selection equals a filter that passes everything when the selection is empty |
| Search.SearchResult | app.py:132-148 | a row is found exactly when it is in the table and meets every criterion, and the results keep table order |
| Search.MissingValueExcluded | app.py:146 | a row with no value in a column that has a range is never found |
| Search.DefaultCriteriaKeepAll | app.py:132-146 | with no selections, no ranges and an age range covering everyone, the search returns the whole table |
| Pagination.TotalPages | app.py:155 | the page count is zero exactly for no results, and otherwise the least count whose pages hold every result |
| Pagination.Page | app.py:156-158 | a page holds at most ten results, taken in order from the page's first index; it is non-empty exactly for an existing page, and full except possibly the last one |
| Pagination.PageExists | app.py:155-158 | a page index names a page exactly when the page's first row exists |
| Pagination.PagesFromSuffix | app.py:155-158 | the pages from a given one to the last, read in turn, are the results from that page's first row on |
| Pagination.PagesCoverResults | app.py:155-158 | reading all pages in order reproduces the result list |
| Pagination.Start | app.py:88-89 | a fresh session has no results and a valid page index |
| Pagination.OnSearch | app.py:148-149 | a search stores its results and resets the index to the first page |
| Pagination.OnClear | app.py:194-196 | clearing empties the results and resets the index |
| Pagination.PreviousDisabled | app.py:181 | definition: the `disabled` condition of the "Previous" button, the first page |
| Pagination.NextDisabled | app.py:187 | definition: the `disabled` condition of the "Next" button, the last page or beyond |
| Pagination.OnPrevious | app.py:181-182 | "Previous" moves back one page, except on the first page where it is disabled; the index stays valid |
| Pagination.OnNext | app.py:187-188 | "Next" moves forward one page, except on the last page where it is disabled; the index stays valid |
| Pagination.ShownPageNonEmpty | app.py:156-185 | in a valid session with results, the page shown is non-empty and its label "Página p de t" is within 1..t |
| Ranking.NumberColumns | app.py:238 | the candidates are exactly the non-boolean numeric columns other than `age` and `minutes_90s`, taken from the header in header order |
| Ranking.RankableColumns | app.py:238 | the attribute selector offers exactly those columns, each as often as the header lists it, sorted by name |
| Ranking.RankableColumnsOnce | app.py:238 | when no two header columns share a name, no attribute is offered twice |
| Ranking.Eligible | app.py:250 | without a minutes column the whole table is ranked; with a numeric one, each row whose minutes reach the threshold is kept as often as it occurs and every other row is dropped, in order; a non-numeric one is an error |
| Ranking.ListedBefore | app.py:252 | definition: the order `nlargest` lists rows in, valued rows by descending value with the earlier row first on ties, then rows without a value by row; its properties are stated by the rows below |
| Ranking.ListingOrderIsTotal | app.py:252 | the order `nlargest` lists rows in compares any two rows and chains |
| Ranking.ListedBeforeAntisymmetric | app.py:252 | no two different rows share a place in that order |
| Ranking.NLargest | app.py:252 | `nlargest` lists min(n, rows) distinct rows in that order, and every row it leaves out comes after every row it lists |
| Ranking.NLargestUnique | app.py:252 | any list with those properties is the one `NLargest` returns, so they determine the result |
| Ranking.EarlierRowWinsTie | app.py:252 | of two rows with equal values, the later one is listed only if the earlier one is |
| Ranking.MissingValuesFillUp | app.py:252 | rows without a value come after every row with one; they are listed only once every row with a value is, and earliest row first |
| Ranking.EmptyOnlyWithoutRows | app.py:252-254 | the list is empty exactly when no rows are asked for or none is eligible, so the "no player found" warning depends on the threshold alone |
| Ranking.GroupValues | app.py:263 | definition: the values of the attribute among one group's members, in row order; the next two rows state what it holds |
| Ranking.GroupValueSource | app.py:263 | each value collected for a group comes from a member of that group |
| Ranking.GroupValueIncluded | app.py:263 | each member of a group that has a value contributes it |
| Ranking.GroupValuesCount | app.py:263 | a group collects exactly one value per member that has one, so `describe()`'s count is that number of members |
| Ranking.StatsOf | app.py:263 | a group's count is its number of values; its minimum and maximum bound every member's value and are attained by some member; without values it has no bounds |
| Ranking.PositionStats | app.py:263 | there is one entry per position that has members, each summarising its members, in label order |
| Ranking.GroupOrderFollowsLabels | app.py:263 | the group order is the strict code-point order of the Portuguese labels, which is how pandas sorts group keys |
| Ranking.GroupsPartitionValues | app.py:263 | every row with a value falls in exactly one of the five groups |
| Ranking.PositionCountsAddUp | app.py:263 | the per-position counts add up to the number of eligible rows that have a value |
| Ranking.Rank | app.py:246-263 | the rankings page fails exactly for a non-numeric minutes column; otherwise its table is the thresholded one, its list is what `nlargest` returns on that table, its position entries summarise that table's positions, and the counts add up |
| Seqs.FilterCount | app.py:136 | boolean-mask selection keeps each row the mask accepts as often as the table has it, and drops every other row |
| Seqs.FilterIsSubseq | app.py:136 | boolean-mask selection keeps the table's row order |
| Examples.AgeExamples | app.py:31-33 | 7305 days make age 20, and one day less makes 19; under a year is 0, and a birth date one day ahead is 0 |
| Examples.PaginationExample | app.py:155-158 | 23 results make 3 pages, and the third page holds results 20 to 22 |

## Left out

- Reading the spreadsheet, the descriptions CSV and the file's
  modification time are left out, because they are file I/O. The model
  starts from the header and the records already read.
- A birth date that `to_datetime` cannot parse becomes `None` in the
  model. Parsing the `DD/MM/YYYY` text itself is left out.
- `datetime.now()` is the parameter `today`.
- Age is computed on integers: for a non-negative day count as
  `(4 * days) / 1461`, and for a negative one as `-((-4 * days) / 1461)`,
  so that both round toward zero as `astype(int)` does (Dafny's `/`
  alone would round a negative quotient down). This equals the integer
  part of the floating-point `days / 365.25` for every day count:
  the exact quotient is either a whole number or at least `1/1461` away
  from one, far more than the rounding error of a double.
- The regular expression built from `re.escape`d alternatives is modelled
  as a literal substring test against each alternative. Escaping makes
  every character literal.
- Python whitespace is the code points that `str.strip()` removes.
  Unicode case and normalisation play no part.
- Duplicate column names are left out. Lookups use the first column of a
  name.
- The page widgets, the result cards, the "complete record" panel,
  number formatting, the plotly bar chart, the CSV download and the
  description tooltips are left out. They are presentation only.
- Slider bounds and defaults are left out: an age slider between the
  table's extremes, and attribute sliders from 0 to the column maximum.
  The search takes whatever ranges it is given. A row with a missing
  value fails a default range too.
- The choice list for N (5, 10, 15, 20), the default attribute and the
  minutes input's defaults are left out. The model takes any `n` and any
  threshold.
- `Ranking.GroupStats`: the mean, median, standard deviation, quartiles
  and rounding to two decimals from `describe().round(2)` are not
  modelled, because they are floating-point arithmetic. Count, minimum
  and maximum are.
- `Ranking.Rank`: does not require the attribute to be a column. In the
  source a missing column raises `KeyError`. In the model the attribute
  simply has no values.
- `Ranking.NLargest`: when n is at least the number of eligible rows,
  pandas sorts through `sort_values` with numpy's default quicksort,
  which does not promise an order for equal values. The model lists
  equal values by earlier row there too, as `keep='first'` documents
  for the other case.
- `Ranking.Eligible`: a minutes column of object dtype is always an
  error in the model. pandas raises only when such a column holds a value
  that cannot be compared with an integer.
- The `df.empty` guards are left out. Search and rankings are
  well-defined on an empty table here. In the source, a load error shows
  a message and the page renders nothing.
- Per-session state is an explicit `Session` value. Streamlit's reruns
  and widget keys are left out.

Behaviour of the code worth noting:

- `astype(int)` truncates toward zero, so a birth date in the future gives
  an age of 0 or less. It is not floored, and not guaranteed to be
  non-negative.
- `describe()` emits a row for every position with members. For a
  position whose members all lack the attribute, that row has count 0.
  The model gives such a group `count == 0` and no bounds.
- The catalog's numeric test accepts boolean columns. The rankings'
  numeric test does not.
- When no row passes the minutes threshold, `describe()` has no rows and
  app.py:264 calls `st.columns(0)`, which Streamlit rejects with an
  exception. `Ranking.Rank` returns `Ok` with an empty list of groups
  for that input: the page's layout is not part of the model.

=== FILE: catalog.dfy ===
/** The attribute catalog: which columns get a range filter, discovered
    from the header by the category-prefix naming convention. */
module Catalog {
  import opened Players
  import Seqs

  datatype Category = Category(title: string, prefix: string)

  /** The ten statistic categories, in display order. */
  const Categories: seq<Category> := [
    Category("ADVANCED GOALKEEPING", "Advanced_Goalkeeping"),
    Category("GOALKEEPING", "Goalkeeping"),
    Category("DEFENSIVE ACTIONS", "Defensive_Actions"),
    Category("GOAL AND SHOT CREATION", "Goal_and_Shot_Creation"),
    Category("MISCELLANEOUS", "Miscellaneous_Stats"),
    Category("PASSING", "Passing"),
    Category("PASS TYPES", "Pass_Types"),
    Category("PLAYING TIME", "Playing_Time"),
    Category("POSSESSION", "Possession"),
    Category("SHOOTING", "Shooting")
  ]

  /** pandas' `is_numeric_dtype`, which also accepts booleans. */
  predicate IsNumericDtype(k: ColumnKind)
  {
    k == Numeric || k == Boolean
  }

  /** Some column called `name` has a numeric dtype. */
  predicate NumericColumn(cols: seq<Column>, name: string)
  {
    exists k :: 0 <= k < |cols| && cols[k].name == name && IsNumericDtype(cols[k].kind)
  }

  /** A numeric column is the first column or a numeric column of the
      rest. */
  lemma NumericColumnCons(cols: seq<Column>, x: string)
    requires |cols| > 0
    ensures NumericColumn(cols, x) <==>
      (cols[0].name == x && IsNumericDtype(cols[0].kind)) || NumericColumn(cols[1..], x)
  {
    if NumericColumn(cols, x) {
      var k :| 0 <= k < |cols| && cols[k].name == x && IsNumericDtype(cols[k].kind);
      if k > 0 { assert cols[1..][k - 1] == cols[k]; }
    }
    if NumericColumn(cols[1..], x) {
      var k :| 0 <= k < |cols[1..]| && cols[1..][k].name == x && IsNumericDtype(cols[1..][k].kind);
      assert cols[k + 1] == cols[1..][k];
    }
  }

  /** The numeric columns whose names start with `prefix`, in header order. */
  function CategoryColumns(prefix: string, cols: seq<Column>): (r: seq<string>)
    ensures forall x :: x in r <==> prefix <= x && NumericColumn(cols, x)
    ensures Seqs.IsSubseq(r, Names(cols))
  {
    if |cols| == 0 then []
    else
      var rest := CategoryColumns(prefix, cols[1..]);
      assert Names(cols) == [cols[0].name] + Names(cols[1..]);
      assert forall x :: NumericColumn(cols, x) <==>
        (cols[0].name == x && IsNumericDtype(cols[0].kind)) || NumericColumn(cols[1..], x) by {
        forall x { NumericColumnCons(cols, x); }
      }
      if prefix <= cols[0].name && IsNumericDtype(cols[0].kind) then
        [cols[0].name] + rest
      else
        Seqs.SubseqDropHead(rest, Names(cols));
        rest
  }

  /** The index of the first category whose prefix starts `name`, or the
      number of categories when none does. */
  function CategoryIndex(name: string): (i: nat)
    ensures i <= |Categories|
    ensures i < |Categories| ==> Categories[i].prefix <= name
  {
    FirstMatch(name, 0)
  }

  function FirstMatch(name: string, from: nat): (i: nat)
    requires from <= |Categories|
    ensures from <= i <= |Categories|
    ensures i < |Categories| ==> Categories[i].prefix <= name
    decreases |Categories| - from
  {
    if from == |Categories| then from
    else if Categories[from].prefix <= name then from
    else FirstMatch(name, from + 1)
  }

  /** Characters 0, 1 and 4 of each prefix, which tell them apart. */
  const Key0: string := "AGDGMPPPPS"
  const Key1: string := "doeoiaaloh"
  const Key4: string := "nkn_ei_iet"

  lemma PrefixKeys(i: nat)
    requires i < |Categories|
    ensures 5 <= |Categories[i].prefix|
    ensures Categories[i].prefix[0] == Key0[i] && Categories[i].prefix[1] == Key1[i]
    ensures Categories[i].prefix[4] == Key4[i]
  {
    if i < 5 {
      PrefixKeysLow(i);
    } else {
      PrefixKeysHigh(i);
    }
  }

  lemma PrefixKeysLow(i: nat)
    requires i < 5
    ensures 5 <= |Categories[i].prefix|
    ensures Categories[i].prefix[0] == Key0[i] && Categories[i].prefix[1] == Key1[i]
    ensures Categories[i].prefix[4] == Key4[i]
  {
  }

  lemma PrefixKeysHigh(i: nat)
    requires 5 <= i < 10
    ensures 5 <= |Categories[i].prefix|
    ensures Categories[i].prefix[0] == Key0[i] && Categories[i].prefix[1] == Key1[i]
    ensures Categories[i].prefix[4] == Key4[i]
  {
  }

  lemma KeysDistinct(i: nat, j: nat)
    requires i < 10 && j < 10 && i != j
    ensures Key0[i] != Key0[j] || Key1[i] != Key1[j] || Key4[i] != Key4[j]
  {
  }

  /** No category prefix starts another, so a column belongs to at most
      one category. */
  lemma PrefixesIndependent(i: nat, j: nat)
    requires i < |Categories| && j < |Categories| && i != j
    ensures !(Categories[i].prefix <= Categories[j].prefix)
  {
    PrefixKeys(i);
    PrefixKeys(j);
    KeysDistinct(i, j);
  }

  lemma PrefixesOfOneString(p: string, q: string, x: string)
    requires p <= x && q <= x && |p| <= |q|
    ensures p <= q
  {
    assert q[..|p|] == x[..|p|];
  }

  lemma {:induction false} FirstMatchIsFirst(name: string, from: nat, j: nat)
    requires from <= j < |Categories| && Categories[j].prefix <= name
    ensures FirstMatch(name, from) <= j
    decreases |Categories| - from
  {
    if from < j && !(Categories[from].prefix <= name) {
      FirstMatchIsFirst(name, from + 1, j);
    }
  }

  /** A name that starts with a category's prefix belongs to that
      category and to no other. */
  lemma CategoryIndexOf(name: string, i: nat)
    requires i < |Categories| && Categories[i].prefix <= name
    ensures CategoryIndex(name) == i
  {
    var c := CategoryIndex(name);
    FirstMatchIsFirst(name, 0, i);
    if c < i {
      var p, q := Categories[c].prefix, Categories[i].prefix;
      if |p| <= |q| {
        PrefixesOfOneString(p, q, name);
        PrefixesIndependent(c, i);
      } else {
        PrefixesOfOneString(q, p, name);
        PrefixesIndependent(i, c);
      }
    }
  }

  /** The columns of the categories from index `from` on, category after
      category (`all_stat_cols`). */
  function StatColumnsFrom(from: nat, cols: seq<Column>): (r: seq<string>)
    requires from <= |Categories|
    ensures forall x :: x in r <==> from <= CategoryIndex(x) < |Categories| && NumericColumn(cols, x)
    decreases |Categories| - from
  {
    if from == |Categories| then []
    else
      var block := CategoryColumns(Categories[from].prefix, cols);
      var rest := StatColumnsFrom(from + 1, cols);
      forall x | Categories[from].prefix <= x
        ensures CategoryIndex(x) == from
      {
        CategoryIndexOf(x, from);
      }
      block + rest
  }

  predicate InCategoryOrder(r: seq<string>)
  {
    forall a, b :: 0 <= a < b < |r| ==> CategoryIndex(r[a]) <= CategoryIndex(r[b])
  }

  lemma OrderedConcat(block: seq<string>, rest: seq<string>, from: nat)
    requires forall k :: 0 <= k < |block| ==> CategoryIndex(block[k]) == from
    requires forall k :: 0 <= k < |rest| ==> CategoryIndex(rest[k]) > from
    requires InCategoryOrder(rest)
    ensures InCategoryOrder(block + rest)
  {
    var r := block + rest;
    forall a, b | 0 <= a < b < |r| ensures CategoryIndex(r[a]) <= CategoryIndex(r[b]) {
      if |block| <= a {
        assert r[a] == rest[a - |block|] && r[b] == rest[b - |block|];
      } else if |block| <= b {
        assert r[b] == rest[b - |block|];
      }
    }
  }

  /** Within the catalog, categories come in their display order. */
  lemma {:induction false} StatColumnsFromOrdered(from: nat, cols: seq<Column>)
    requires from <= |Categories|
    ensures InCategoryOrder(StatColumnsFrom(from, cols))
    decreases |Categories| - from
  {
    if from < |Categories| {
      StatColumnsFromOrdered(from + 1, cols);
      var block := CategoryColumns(Categories[from].prefix, cols);
      var rest := StatColumnsFrom(from + 1, cols);
      forall k | 0 <= k < |block| ensures CategoryIndex(block[k]) == from {
        assert block[k] in block;
        CategoryIndexOf(block[k], from);
      }
      forall k | 0 <= k < |rest| ensures CategoryIndex(rest[k]) > from {
        assert rest[k] in rest;
      }
      OrderedConcat(block, rest, from);
    }
  }

  /** Every numeric column filed under a category (`all_stat_cols`). */
  function StatColumns(cols: seq<Column>): (r: seq<string>)
    ensures forall x :: x in r <==> CategoryIndex(x) < |Categories| && NumericColumn(cols, x)
  {
    StatColumnsFrom(0, cols)
  }

  /** The columns filed under category `i`. */
  function InCategory(i: nat): string -> bool
  {
    (x: string) => CategoryIndex(x) == i
  }

  /** Every column of a category's block is filed under that category. */
  lemma BlockInCategory(from: nat, cols: seq<Column>, block: seq<string>)
    requires from < |Categories| && block == CategoryColumns(Categories[from].prefix, cols)
    ensures forall k :: 0 <= k < |block| ==> InCategory(from)(block[k])
  {
    forall k | 0 <= k < |block| ensures CategoryIndex(block[k]) == from {
      assert block[k] in block;
      CategoryIndexOf(block[k], from);
    }
  }

  /** Picking one category's columns out of the catalog from `from` on
      gives that category's block, or nothing for an earlier category. */
  lemma {:induction false} StatColumnsFromByCategory(from: nat, cols: seq<Column>, i: nat)
    requires from <= |Categories|
    ensures Seqs.Filter(InCategory(i), StatColumnsFrom(from, cols)) ==
      if from <= i < |Categories| then CategoryColumns(Categories[i].prefix, cols) else []
    decreases |Categories| - from
  {
    if from < |Categories| {
      StatColumnsFromByCategory(from + 1, cols, i);
      var block := CategoryColumns(Categories[from].prefix, cols);
      var rest := StatColumnsFrom(from + 1, cols);
      assert StatColumnsFrom(from, cols) == block + rest;
      BlockInCategory(from, cols, block);
      if i == from {
        Seqs.FilterPicksBlock(InCategory(i), block, rest);
      } else {
        Seqs.FilterSkipsBlock(InCategory(i), block, rest);
      }
    }
  }

  /** The catalog lists categories in display order, and within a
      category the columns in header order: picking out one category
      gives exactly that category's columns, a subsequence of the
      header. */
  lemma StatColumnsOrder(cols: seq<Column>)
    ensures InCategoryOrder(StatColumns(cols))
    ensures forall i :: 0 <= i < |Categories| ==>
      Seqs.Filter(InCategory(i), StatColumns(cols)) == CategoryColumns(Categories[i].prefix, cols)
    ensures forall i :: 0 <= i < |Categories| ==>
      Seqs.IsSubseq(CategoryColumns(Categories[i].prefix, cols), Names(cols))
  {
    StatColumnsFromOrdered(0, cols);
    forall i | 0 <= i < |Categories|
      ensures Seqs.Filter(InCategory(i), StatColumns(cols)) == CategoryColumns(Categories[i].prefix, cols)
    {
      StatColumnsFromByCategory(0, cols, i);
    }
  }

  /** Loading keeps the spreadsheet's statistic columns: a numeric column
      that `load_data` does not reassign reaches the slider catalog of the
      loaded header exactly when it is filed under a category. */
  lemma LoadKeepsStatColumn(header: seq<Column>, k: nat)
    requires HasColumn(header, "birth_date") && k < |header|
    requires IsNumericDtype(header[k].kind) && !Assigned(header[k].name)
    ensures header[k].name in StatColumns(AssignColumns(header)) <==> CategoryIndex(header[k].name) < |Categories|
  {
    var cols := AssignColumns(header);
    assert cols[k] == header[k];
  }
}

=== FILE: examples.dfy ===
/** Worked cases of the documented behaviour, stated as lemmas about the
    model on small concrete inputs. */
module Examples {
  import opened Players
  import Pagination

  /** Twenty years with five leap days give 20; one day less gives 19. A
      first birthday in a non-leap year still gives 0, because a year
      counts as 365.25 days. */
  lemma AgeExamples()
    ensures AgeFromDays(7305) == 20
    ensures AgeFromDays(7304) == 19
    ensures AgeFromDays(365) == 0
    ensures AgeFromDays(-1) == 0
  {
  }

  /** 23 results make 3 pages, and the last one holds rows 20 to 22. */
  lemma PaginationExample(results: seq<int>)
    requires |results| == 23
    ensures Pagination.TotalPages(|results|) == 3
    ensures Pagination.Page(results, 2) == results[20..23]
    ensures |Pagination.Page(results, 2)| == 3
  {
  }
}

=== FILE: pagination.dfy ===
/** Paging through search results, and the page index kept between
    interactions: ten results per page, "Previous" and "Next" buttons
    disabled at the ends, and the index reset by a new search or a clear. */
module Pagination {

  const PageSize: nat := 10

  /** `math.ceil(n / PageSize)`. */
  function TotalPages(n: nat): (t: nat)
    ensures n == 0 <==> t == 0
    ensures n > 0 ==> (t - 1) * PageSize < n <= t * PageSize
  {
    (n + PageSize - 1) / PageSize
  }

  function Min(a: int, b: int): int
  {
    if a <= b then a else b
  }

  /** `results.iloc[page * PageSize : page * PageSize + PageSize]`; the
      slice bounds are clipped to the sequence as Python clips them. */
  function Page<T>(results: seq<T>, page: nat): (r: seq<T>)
    ensures |r| <= PageSize
    ensures forall i :: 0 <= i < |r| ==> page * PageSize + i < |results| && r[i] == results[page * PageSize + i]
    ensures page < TotalPages(|results|) ==> 0 < |r| == Min(PageSize, |results| - page * PageSize)
    ensures page >= TotalPages(|results|) ==> r == []
  {
    var start := page * PageSize;
    var end := start + PageSize;
    results[Min(start, |results|)..Min(end, |results|)]
  }

  /** The pages from `from` up to the last one, back to back. */
  function PagesFrom<T>(results: seq<T>, from: nat): seq<T>
    decreases TotalPages(|results|) - from
  {
    if from >= TotalPages(|results|) then [] else Page(results, from) + PagesFrom(results, from + 1)
  }

  /** A page index names a page exactly when its first row exists. */
  lemma PageExists(n: nat, page: nat)
    ensures page < TotalPages(n) <==> page * PageSize < n
  {
  }

  /** Reading the pages in turn from `from` on gives the results from that
      page's first row on. */
  lemma {:induction false} PagesFromSuffix<T>(results: seq<T>, from: nat)
    ensures PagesFrom(results, from) == results[Min(from * PageSize, |results|)..]
    decreases TotalPages(|results|) - from
  {
    var n := |results|;
    var start := from * PageSize;
    PageExists(n, from);
    if start < n {
      PagesFromSuffix(results, from + 1);
      var next := start + PageSize;
      assert (from + 1) * PageSize == next;
      var page := Page(results, from);
      assert page == results[start..Min(next, n)];
      assert results[start..] == page + results[Min(next, n)..];
    }
  }

  /** The pages, read in order, reproduce the result list. */
  lemma PagesCoverResults<T>(results: seq<T>)
    ensures PagesFrom(results, 0) == results
  {
    PagesFromSuffix(results, 0);
  }

  /** "Previous" is disabled on the first page. */
  predicate PreviousDisabled(page: nat)
  {
    page < 1
  }

  /** "Next" is disabled from the last page on. */
  predicate NextDisabled(page: nat, totalPages: nat)
  {
    page >= totalPages - 1
  }

  /** The per-session state: the last search's results and the current
      page index. */
  datatype Session<T> = Session(results: seq<T>, page: nat)

  /** The index names a page that exists, or is 0 when there are no results. */
  predicate Valid<T>(s: Session<T>)
  {
    if |s.results| == 0 then s.page == 0 else s.page < TotalPages(|s.results|)
  }

  function Start<T>(): (s: Session<T>)
    ensures Valid(s) && s.results == []
  {
    Session([], 0)
  }

  /** Running a search replaces the results and goes back to the first page. */
  function OnSearch<T>(s: Session<T>, found: seq<T>): (r: Session<T>)
    ensures Valid(r)
    ensures r.results == found && r.page == 0
  {
    Session(found, 0)
  }

  /** "Clear filters and search" empties the results and the index. */
  function OnClear<T>(s: Session<T>): (r: Session<T>)
    ensures Valid(r)
    ensures r.results == [] && r.page == 0
  {
    Session([], 0)
  }

  /** Clicking "Previous"; a disabled button does nothing. */
  function OnPrevious<T>(s: Session<T>): (r: Session<T>)
    requires Valid(s)
    ensures Valid(r) && r.results == s.results
    ensures s.page > 0 ==> r.page + 1 == s.page
    ensures s.page == 0 ==> r == s
  {
    if PreviousDisabled(s.page) then s else Session(s.results, s.page - 1)
  }

  /** Clicking "Next"; a disabled button does nothing. */
  function OnNext<T>(s: Session<T>): (r: Session<T>)
    requires Valid(s)
    ensures Valid(r) && r.results == s.results
    ensures s.page + 1 < TotalPages(|s.results|) ==> r.page == s.page + 1
    ensures s.page + 1 >= TotalPages(|s.results|) ==> r == s
  {
    if NextDisabled(s.page, TotalPages(|s.results|)) then s else Session(s.results, s.page + 1)
  }

  /** In a valid session the page shown is never empty when there are
      results, and the page label "Página p+1 de total" is in range. */
  lemma ShownPageNonEmpty<T>(s: Session<T>)
    requires Valid(s) && |s.results| > 0
    ensures 0 < |Page(s.results, s.page)|
    ensures 1 <= s.page + 1 <= TotalPages(|s.results|)
  {
  }
}

=== FILE: players.dfy ===
/** The player table and what loading derives from it: the trimmed
    header, each player's age from the birth date, and the coarse
    position group from the first listed role.  Rows whose birth date
    could not be parsed are dropped. */
module Players {
  import opened Wrappers
  import opened Text
  import Seqs

  /** The dtype of a column as far as the application cares: pandas'
      `is_numeric_dtype` accepts `Numeric` and `Boolean`, while
      `select_dtypes(include='number')` accepts only `Numeric`. */
  datatype ColumnKind = Numeric | Boolean | NonNumeric

  datatype Column = Column(name: string, kind: ColumnKind)

  /** The header as a list of names (`df.columns`). */
  function Names(cols: seq<Column>): (r: seq<string>)
    ensures |r| == |cols|
    ensures forall k :: 0 <= k < |cols| ==> r[k] == cols[k].name
  {
    seq(|cols|, k requires 0 <= k < |cols| => cols[k].name)
  }

  predicate HasColumn(cols: seq<Column>, name: string)
  {
    exists k :: 0 <= k < |cols| && cols[k].name == name
  }

  /** A row of the spreadsheet.  `None` is a missing cell; a statistic
      column whose name is not a key of `stats` is missing for this row.
      `birthDay` is the day number of the parsed `DD/MM/YYYY` birth date,
      `None` when parsing failed. */
  datatype Record = Record(
    player: string,
    position: Option<string>,
    nationality: Option<string>,
    team: Option<string>,
    birthDay: Option<int>,
    stats: map<string, real>)

  /** The coarse position group, with the label the application shows. */
  datatype GeneralPosition = Goalkeeper | Defender | Midfielder | Forward | Other
  {
    function Label(): string
    {
      match this
      case Goalkeeper => "Goleiro"
      case Defender => "Defensor"
      case Midfielder => "Meio-campista"
      case Forward => "Atacante"
      case Other => "Outro"
    }
  }

  /** A row of the working table: the record plus the derived columns. */
  datatype Player = Player(record: Record, age: int, general: GeneralPosition)

  function Stat(p: Player, col: string): Option<real>
  {
    if col in p.record.stats then Some(p.record.stats[col]) else None
  }

  datatype RawTable = RawTable(columns: seq<Column>, records: seq<Record>)

  datatype Table = Table(columns: seq<Column>, players: seq<Player>)

  /** Loading fails with pandas' KeyError when a column it reads is absent. */
  datatype LoadError = MissingColumn(name: string)

  /** The many-to-one table from a role to its group. */
  const PositionTable: map<string, GeneralPosition> := map[
    "Goalkeeper" := Goalkeeper,
    "Defender" := Defender, "Fullback" := Defender, "Left Back" := Defender,
    "Right Back" := Defender, "Center Back" := Defender,
    "Midfielder" := Midfielder, "Defensive Midfielder" := Midfielder,
    "Central Midfielder" := Midfielder, "Left Midfielder" := Midfielder,
    "Right Midfielder" := Midfielder, "Wide Midfielder" := Midfielder,
    "Attacking Midfielder" := Midfielder,
    "Forward" := Forward, "Left Winger" := Forward, "Right Winger" := Forward
  ]

  /** No listed role maps to the fallback group. */
  lemma TableHasNoOther(role: string)
    requires role in PositionTable
    ensures PositionTable[role] != Other
  {
  }

  /** The primary role: the stripped first comma-separated field. */
  function PrimaryRole(position: string): string
  {
    Trim(FirstField(position))
  }

  /** Group of a raw position; a missing position or an unlisted primary
      role falls back to `Other`. */
  function GeneralPositionOf(position: Option<string>): (g: GeneralPosition)
    ensures g == Other <==> position.None? || PrimaryRole(position.value) !in PositionTable
    ensures position.Some? && PrimaryRole(position.value) in PositionTable ==>
      g == PositionTable[PrimaryRole(position.value)]
  {
    match position
    case None => Other
    case Some(s) =>
      var role := PrimaryRole(s);
      if role in PositionTable then
        TableHasNoOther(role);
        PositionTable[role]
      else Other
  }

  /** Listing further roles after the first never changes the group. */
  lemma OnlyFirstRoleCounts(first: string, rest: string)
    requires ',' !in first
    ensures GeneralPositionOf(Some(first + "," + rest)) == GeneralPositionOf(Some(first))
  {
    FirstFieldIgnoresRest(first, rest);
    FirstFieldOfPlain(first);
  }

  /** A role written without commas or surrounding whitespace is its own
      primary role, so it is looked up as written. */
  lemma PlainRole(s: string)
    requires ',' !in s
    requires |s| > 0 ==> !IsSpace(s[0]) && !IsSpace(s[|s| - 1])
    ensures PrimaryRole(s) == s
    ensures GeneralPositionOf(Some(s)) == if s in PositionTable then PositionTable[s] else Other
  {
    FirstFieldOfPlain(s);
    TrimIsCore(s, 0, |s|);
    assert s[0..|s|] == s;
  }

  /** Whitespace around the first role does not change the group. */
  lemma PaddingIgnored(pre: string, role: string, post: string)
    requires AllSpace(pre) && AllSpace(post)
    requires ',' !in pre + role + post
    ensures GeneralPositionOf(Some(pre + role + post)) == GeneralPositionOf(Some(role))
  {
    FirstFieldOfPlain(pre + role + post);
    assert ',' !in role;
    FirstFieldOfPlain(role);
    SurroundingSpaceIgnored(pre, role, post);
  }

  /** Whole years in `days` days, the integer part of `days / 365.25`
      (`astype(int)` truncates toward zero, so a birth date in the future
      gives a non-positive age). */
  function AgeFromDays(days: int): (age: int)
    ensures days >= 0 ==> 0 <= age && (age as real) * 365.25 <= days as real < (age as real + 1.0) * 365.25
    ensures days < 0 ==> age <= 0 && (age as real - 1.0) * 365.25 < days as real <= (age as real) * 365.25
  {
    if days >= 0 then
      var q := (4 * days) / 1461;
      assert 1461 * q <= 4 * days < 1461 * (q + 1);
      assert (1461 * q) as real <= (4 * days) as real < (1461 * (q + 1)) as real;
      q
    else
      var q := (-4 * days) / 1461;
      assert 1461 * q <= -4 * days < 1461 * (q + 1);
      assert (1461 * q) as real <= (-4 * days) as real < (1461 * (q + 1)) as real;
      -q
  }

  predicate HasBirthDate(r: Record)
  {
    r.birthDay.Some?
  }

  function Records(ps: seq<Player>): seq<Record>
  {
    seq(|ps|, k requires 0 <= k < |ps| => ps[k].record)
  }

  /** `p` carries the age and group its record determines at day `today`. */
  predicate DerivedFrom(p: Player, today: int)
  {
    && p.record.birthDay.Some?
    && p.age == AgeFromDays(today - p.record.birthDay.value)
    && p.general == GeneralPositionOf(p.record.position)
  }

  /** The derived rows: undated records are dropped, the rest keep their
      order and gain an age and a position group. */
  function DerivePlayers(records: seq<Record>, today: int): (ps: seq<Player>)
    ensures Records(ps) == Seqs.Filter(HasBirthDate, records)
    ensures forall k :: 0 <= k < |ps| ==> DerivedFrom(ps[k], today)
  {
    if |records| == 0 then []
    else
      var rest := DerivePlayers(records[1..], today);
      var r := records[0];
      match r.birthDay
      case None =>
        assert Seqs.Filter(HasBirthDate, records) == Seqs.Filter(HasBirthDate, records[1..]);
        rest
      case Some(b) =>
        var p := Player(r, AgeFromDays(today - b), GeneralPositionOf(r.position));
        assert Seqs.Filter(HasBirthDate, records) == [r] + Seqs.Filter(HasBirthDate, records[1..]);
        assert Records([p] + rest) == [r] + Records(rest);
        assert DerivedFrom(p, today);
        [p] + rest
  }

  /** A derived row exists for a record exactly when its birth date was
      parsed, and the derived rows keep the table's order. */
  lemma DerivedRows(records: seq<Record>, today: int, r: Record)
    ensures r in Records(DerivePlayers(records, today)) <==> r in records && r.birthDay.Some?
    ensures Seqs.IsSubseq(Records(DerivePlayers(records, today)), records)
  {
    Seqs.FilterMembership(HasBirthDate, records, r);
    Seqs.FilterIsSubseq(HasBirthDate, records);
  }

  function TrimHeader(cols: seq<Column>): (r: seq<Column>)
    ensures |r| == |cols|
    ensures forall k :: 0 <= k < |cols| ==> r[k] == Column(Trim(cols[k].name), cols[k].kind)
  {
    if |cols| == 0 then [] else [Column(Trim(cols[0].name), cols[0].kind)] + TrimHeader(cols[1..])
  }

  /** `df[name] = ...`: an existing column of that name changes its dtype
      in place, otherwise a new column is appended. */
  function SetColumn(cols: seq<Column>, c: Column): (r: seq<Column>)
    ensures HasColumn(r, c.name)
    ensures forall k :: 0 <= k < |r| && r[k].name == c.name ==> r[k] == c
    ensures HasColumn(cols, c.name) ==> |r| == |cols|
    ensures !HasColumn(cols, c.name) ==> |r| == |cols| + 1 && r[|cols|] == c
    ensures forall k :: 0 <= k < |cols| ==> r[k].name == cols[k].name
    ensures forall k :: 0 <= k < |cols| && cols[k].name != c.name ==> r[k] == cols[k]
  {
    var replaced := seq(|cols|, k requires 0 <= k < |cols| =>
      if cols[k].name == c.name then c else cols[k]);
    if HasColumn(cols, c.name) then
      var k :| 0 <= k < |cols| && cols[k].name == c.name;
      assert replaced[k].name == c.name;
      replaced
    else
      var r := replaced + [c];
      assert r[|cols|] == c;
      r
  }

  /** The columns `load_data` assigns: `birth_date` becomes a date
      column, `age` a number and `general_position` a label. */
  predicate Assigned(name: string)
  {
    name == "birth_date" || name == "age" || name == "general_position"
  }

  function AssignedKind(name: string): ColumnKind
  {
    if name == "age" then Numeric else NonNumeric
  }

  /** The header after `load_data`'s three assignments: the existing
      columns keep their place and name, only assigned ones change dtype,
      and any new column is `age` or `general_position`. */
  function AssignColumns(header: seq<Column>): (cols: seq<Column>)
    requires HasColumn(header, "birth_date")
    ensures HasColumn(cols, "birth_date") && HasColumn(cols, "age") && HasColumn(cols, "general_position")
    ensures |header| <= |cols| <= |header| + 2
    ensures forall k :: 0 <= k < |header| ==> cols[k].name == header[k].name
    ensures forall k :: 0 <= k < |header| && !Assigned(cols[k].name) ==> cols[k] == header[k]
    ensures forall k :: 0 <= k < |cols| && Assigned(cols[k].name) ==> cols[k].kind == AssignedKind(cols[k].name)
    ensures forall k :: |header| <= k < |cols| ==> cols[k].name == "age" || cols[k].name == "general_position"
  {
    var dated := SetColumn(header, Column("birth_date", NonNumeric));
    assert |dated| == |header|;
    var aged := SetColumn(dated, Column("age", Numeric));
    assert forall k :: 0 <= k < |aged| && aged[k].name == "birth_date" ==> aged[k].kind == NonNumeric by {
      forall k | 0 <= k < |aged| && aged[k].name == "birth_date" ensures aged[k].kind == NonNumeric {
        assert aged[k] == dated[k];
      }
    }
    var cols := SetColumn(aged, Column("general_position", NonNumeric));
    assert HasColumn(aged, "birth_date");
    assert forall k :: 0 <= k < |cols| && Assigned(cols[k].name) ==> cols[k].kind == AssignedKind(cols[k].name) by {
      forall k | 0 <= k < |cols| && Assigned(cols[k].name) ensures cols[k].kind == AssignedKind(cols[k].name) {
        if cols[k].name != "general_position" {
          assert cols[k] == aged[k];
        }
      }
    }
    cols
  }

  /** `load_data` after the spreadsheet has been read: trims the header,
      turns `birth_date` into a date column, derives `age` and
      `general_position`, and drops undated rows. */
  function Load(raw: RawTable, today: int): (t: Result<Table, LoadError>)
    ensures t.Err? <==>
      (!HasColumn(TrimHeader(raw.columns), "birth_date") || !HasColumn(TrimHeader(raw.columns), "position"))
    ensures t.Err? && !HasColumn(TrimHeader(raw.columns), "birth_date") ==>
      t.error == MissingColumn("birth_date")
    ensures t.Err? && HasColumn(TrimHeader(raw.columns), "birth_date") ==>
      t.error == MissingColumn("position")
    ensures t.Ok? ==>
      && HasColumn(t.value.columns, "age")
      && HasColumn(t.value.columns, "general_position")
      && Records(t.value.players) == Seqs.Filter(HasBirthDate, raw.records)
      && (forall k :: 0 <= k < |t.value.players| ==> DerivedFrom(t.value.players[k], today))
    ensures t.Ok? ==>
      && t.value.columns == AssignColumns(TrimHeader(raw.columns))
      && |raw.columns| <= |t.value.columns|
      && (forall k :: 0 <= k < |raw.columns| ==> t.value.columns[k].name == Trim(raw.columns[k].name))
      && (forall k :: 0 <= k < |raw.columns| && !Assigned(t.value.columns[k].name) ==>
            t.value.columns[k] == Column(Trim(raw.columns[k].name), raw.columns[k].kind))
  {
    var header := TrimHeader(raw.columns);
    if !HasColumn(header, "birth_date") then Err(MissingColumn("birth_date"))
    else if !HasColumn(header, "position") then Err(MissingColumn("position"))
    else
      Ok(Table(AssignColumns(header), DerivePlayers(raw.records, today)))
  }
}

=== FILE: ranking.dfy ===
/** The rankings page: the columns offered for ranking, the minutes
    threshold, the top N players by one attribute (pandas `nlargest`,
    which keeps the earlier row on ties and lists rows without a value
    last), and
    per-position count, minimum and maximum over the thresholded table. */
module Ranking {
  import opened Wrappers
  import opened Players
  import opened Text
  import Seqs
  import Sorting

  const MinutesColumn: string := "Playing_Time_minutes"

  // ---------------------------------------------------------------------
  // Rankable columns

  /** Numeric columns (`select_dtypes(include='number')`, which leaves out
      booleans) other than `age` and `minutes_90s`, in header order. */
  function NumberColumns(cols: seq<Column>): (r: seq<string>)
    ensures forall x :: x in r <==> x != "age" && x != "minutes_90s" && NumberColumn(cols, x)
    ensures Seqs.IsSubseq(r, Names(cols))
  {
    if |cols| == 0 then []
    else
      var c := cols[0];
      var rest := NumberColumns(cols[1..]);
      assert Names(cols) == [c.name] + Names(cols[1..]);
      assert forall x :: NumberColumn(cols, x) <==> (c.name == x && c.kind == Numeric) || NumberColumn(cols[1..], x) by {
        forall x ensures NumberColumn(cols, x) <==> (c.name == x && c.kind == Numeric) || NumberColumn(cols[1..], x) {
          if NumberColumn(cols, x) {
            var k :| 0 <= k < |cols| && cols[k].name == x && cols[k].kind == Numeric;
            if k > 0 { assert cols[1..][k - 1] == cols[k]; }
          }
          if NumberColumn(cols[1..], x) {
            var k :| 0 <= k < |cols[1..]| && cols[1..][k].name == x && cols[1..][k].kind == Numeric;
            assert cols[k + 1] == cols[1..][k];
          }
        }
      }
      if c.kind == Numeric && c.name != "age" && c.name != "minutes_90s" then [c.name] + rest
      else
        Seqs.SubseqDropHead(rest, Names(cols));
        rest
  }

  predicate NumberColumn(cols: seq<Column>, name: string)
  {
    exists k :: 0 <= k < |cols| && cols[k].name == name && cols[k].kind == Numeric
  }

  /** The attributes offered in the ranking selector, sorted by name. */
  function RankableColumns(cols: seq<Column>): (r: seq<string>)
    ensures SortedStrings(r)
    ensures forall x :: x in r <==> x != "age" && x != "minutes_90s" && NumberColumn(cols, x)
    ensures multiset(r) == multiset(NumberColumns(cols))
  {
    var r := SortStrings(NumberColumns(cols));
    assert forall x :: x in r <==> x in NumberColumns(cols) by {
      forall x ensures x in r <==> x in NumberColumns(cols) {
        assert x in r <==> x in multiset(r);
      }
    }
    r
  }

  /** A header without repeated names offers each attribute once. */
  lemma RankableColumnsOnce(cols: seq<Column>)
    requires Seqs.Distinct(Names(cols))
    ensures Seqs.Distinct(RankableColumns(cols))
  {
    Seqs.DistinctCountsOnce(Names(cols));
    Seqs.SubseqCount(NumberColumns(cols), Names(cols));
    Seqs.CountsOnceDistinct(RankableColumns(cols));
  }

  // ---------------------------------------------------------------------
  // Minutes threshold

  /** Comparing a non-numeric minutes column with a number raises in pandas. */
  datatype RankError = MinutesNotComparable

  /** The dtype of the first column called `name`. */
  function KindOf(cols: seq<Column>, name: string): (k: Option<ColumnKind>)
    ensures k.None? <==> !HasColumn(cols, name)
  {
    if |cols| == 0 then None
    else if cols[0].name == name then Some(cols[0].kind)
    else
      assert HasColumn(cols, name) <==> HasColumn(cols[1..], name) by {
        if HasColumn(cols, name) {
          var k :| 0 <= k < |cols| && cols[k].name == name;
          assert cols[1..][k - 1] == cols[k];
        }
        if HasColumn(cols[1..], name) {
          var k :| 0 <= k < |cols[1..]| && cols[1..][k].name == name;
          assert cols[k + 1] == cols[1..][k];
        }
      }
      KindOf(cols[1..], name)
  }

  function MinutesMask(minMinutes: int): Player -> bool
  {
    (p: Player) => Stat(p, MinutesColumn).Some? && Stat(p, MinutesColumn).value >= minMinutes as real
  }

  /** The table the ranking works on: players with at least `minMinutes`
      minutes when the minutes column exists, the whole table otherwise. */
  function Eligible(t: Table, minMinutes: int): (r: Result<seq<Player>, RankError>)
    ensures !HasColumn(t.columns, MinutesColumn) ==> r == Ok(t.players)
    ensures r.Err? <==> KindOf(t.columns, MinutesColumn) == Some(NonNumeric)
    ensures r.Ok? && HasColumn(t.columns, MinutesColumn) ==>
      forall p :: p in r.value <==>
        p in t.players && Stat(p, MinutesColumn).Some? && Stat(p, MinutesColumn).value >= minMinutes as real
    ensures r.Ok? && HasColumn(t.columns, MinutesColumn) ==>
      forall p :: multiset(r.value)[p] == if MinutesMask(minMinutes)(p) then multiset(t.players)[p] else 0
    ensures r.Ok? ==> Seqs.IsSubseq(r.value, t.players)
  {
    match KindOf(t.columns, MinutesColumn)
    case None =>
      Seqs.FilterKeepsAll((p: Player) => true, t.players);
      Seqs.FilterIsSubseq((p: Player) => true, t.players);
      Ok(t.players)
    case Some(kind) =>
      if kind == NonNumeric then Err(MinutesNotComparable)
      else
        var kept := Seqs.Filter(MinutesMask(minMinutes), t.players);
        Seqs.FilterIsSubseq(MinutesMask(minMinutes), t.players);
        Seqs.FilterCount(MinutesMask(minMinutes), t.players);
        assert forall p :: p in kept <==> p in t.players && MinutesMask(minMinutes)(p) by {
          forall p ensures p in kept <==> p in t.players && MinutesMask(minMinutes)(p) {
            Seqs.FilterMembership(MinutesMask(minMinutes), t.players, p);
          }
        }
        Ok(kept)
  }

  // ---------------------------------------------------------------------
  // Top N

  predicate HasStat(p: Player, attr: string)
  {
    Stat(p, attr).Some?
  }

  function HasStatMask(attr: string): Player -> bool
  {
    (p: Player) => HasStat(p, attr)
  }

  /** Row `i` exists and has a value for `attr`. */
  predicate Valued(ps: seq<Player>, attr: string, i: nat)
  {
    i < |ps| && HasStat(ps[i], attr)
  }

  /** The order `nlargest` lists rows in: rows with a value first, a
      larger value before a smaller one and equal values by earlier row,
      then the rows without a value by row.  Row `i` comes no later than
      row `j`. */
  predicate ListedBefore(ps: seq<Player>, attr: string, i: nat, j: nat)
  {
    if Valued(ps, attr, i) && Valued(ps, attr, j) then
      var a, b := Stat(ps[i], attr).value, Stat(ps[j], attr).value;
      a > b || (a == b && i <= j)
    else if Valued(ps, attr, i) then true
    else if Valued(ps, attr, j) then false
    else i <= j
  }

  function ListingOrder(ps: seq<Player>, attr: string): (nat, nat) -> bool
  {
    (i: nat, j: nat) => ListedBefore(ps, attr, i, j)
  }

  lemma ListingOrderIsTotal(ps: seq<Player>, attr: string)
    ensures Sorting.TotalPreorder(ListingOrder(ps, attr))
  {
  }

  /** Two different rows never share a place in the order. */
  lemma ListedBeforeAntisymmetric(ps: seq<Player>, attr: string, i: nat, j: nat)
    requires ListedBefore(ps, attr, i, j) && ListedBefore(ps, attr, j, i)
    ensures i == j
  {
  }

  /** The row numbers `0 .. m - 1`. */
  function Rows(m: nat): (r: seq<nat>)
    ensures |r| == m
    ensures forall k :: 0 <= k < m ==> r[k] == k
  {
    if m == 0 then [] else Rows(m - 1) + [m - 1]
  }

  lemma {:induction false} RowsCount(m: nat)
    ensures forall x: nat :: multiset(Rows(m))[x] == if x < m then 1 else 0
  {
    if m > 0 {
      RowsCount(m - 1);
      var prev := Rows(m - 1);
      var last: seq<nat> := [m - 1];
      assert Rows(m) == prev + last;
      assert multiset(Rows(m)) == multiset(prev) + multiset(last);
    }
  }

  lemma TwiceCounted(s: seq<nat>, a: nat, b: nat)
    requires a < b < |s| && s[a] == s[b]
    ensures multiset(s)[s[a]] >= 2
  {
    assert s == s[..b] + s[b..];
    assert s[..b][a] == s[a];
    assert s[b..][0] == s[b];
  }

  /** A rearrangement of the rows lists each row exactly once. */
  lemma RowsPermutation(s: seq<nat>, m: nat)
    requires multiset(s) == multiset(Rows(m))
    ensures |s| == m
    ensures forall k :: 0 <= k < |s| ==> s[k] < m
    ensures forall i :: 0 <= i < m ==> i in s
    ensures forall a, b :: 0 <= a < b < |s| ==> s[a] != s[b]
  {
    RowsCount(m);
    assert |multiset(s)| == |s|;
    forall k | 0 <= k < |s| ensures s[k] < m {
      assert s[k] in multiset(s);
    }
    forall i | 0 <= i < m ensures i in s {
      assert i in multiset(s);
    }
    forall a, b | 0 <= a < b < |s| ensures s[a] != s[b] {
      if s[a] == s[b] {
        TwiceCounted(s, a, b);
      }
    }
  }

  /** What `nlargest(n, attr)` promises: min(n, rows) distinct rows,
      listed in the order above and ahead of every row left out. */
  predicate IsNLargest(ps: seq<Player>, attr: string, n: nat, r: seq<nat>)
  {
    && |r| == (if n <= |ps| then n else |ps|)
    && (forall k :: 0 <= k < |r| ==> r[k] < |ps|)
    && (forall a, b :: 0 <= a < b < |r| ==> r[a] != r[b] && ListedBefore(ps, attr, r[a], r[b]))
    && (forall i :: 0 <= i < |ps| && i !in r ==> forall k :: 0 <= k < |r| ==> ListedBefore(ps, attr, r[k], i))
  }

  /** The first `m` rows of the table sorted by the listing order. */
  lemma FirstOfSorted(ps: seq<Player>, attr: string, sorted: seq<nat>, m: nat)
    requires m <= |sorted| == |ps|
    requires Sorting.SortedBy(ListingOrder(ps, attr), sorted)
    requires forall k :: 0 <= k < |sorted| ==> sorted[k] < |ps|
    requires forall i :: 0 <= i < |ps| ==> i in sorted
    requires forall a, b :: 0 <= a < b < |sorted| ==> sorted[a] != sorted[b]
    ensures IsNLargest(ps, attr, m, sorted[..m])
  {
    var r := sorted[..m];
    forall a, b | 0 <= a < b < |r| ensures r[a] != r[b] && ListedBefore(ps, attr, r[a], r[b]) {
      assert r[a] == sorted[a] && r[b] == sorted[b];
      assert ListingOrder(ps, attr)(sorted[a], sorted[b]);
    }
    forall i | 0 <= i < |ps| && i !in r
      ensures forall k :: 0 <= k < |r| ==> ListedBefore(ps, attr, r[k], i)
    {
      assert i in sorted;
      var j :| 0 <= j < |sorted| && sorted[j] == i;
      forall k | 0 <= k < |r| ensures ListedBefore(ps, attr, r[k], i) {
        assert r[k] == sorted[k];
        assert ListingOrder(ps, attr)(sorted[k], sorted[j]);
      }
    }
  }

  /** `nlargest(n, attr)`: the row numbers of the first `n` rows in
      listing order. */
  function NLargest(ps: seq<Player>, attr: string, n: nat): (r: seq<nat>)
    ensures IsNLargest(ps, attr, n, r)
  {
    ListingOrderIsTotal(ps, attr);
    var sorted := Sorting.SortBy(ListingOrder(ps, attr), Rows(|ps|));
    RowsPermutation(sorted, |ps|);
    var m := if n <= |ps| then n else |ps|;
    FirstOfSorted(ps, attr, sorted, m);
    sorted[..m]
  }

  /** With equal prefixes, what one list has next comes no later than
      what the other has next. */
  lemma PlaceBefore(ps: seq<Player>, attr: string, n: nat, r1: seq<nat>, r2: seq<nat>, k: nat)
    requires IsNLargest(ps, attr, n, r1) && IsNLargest(ps, attr, n, r2)
    requires k < |r1| && r1[..k] == r2[..k]
    ensures ListedBefore(ps, attr, r1[k], r2[k])
  {
    var y := r2[k];
    if y in r1 {
      var p :| 0 <= p < |r1| && r1[p] == y;
    }
  }

  lemma {:induction false} PrefixesAgree(ps: seq<Player>, attr: string, n: nat, r1: seq<nat>, r2: seq<nat>, k: nat)
    requires IsNLargest(ps, attr, n, r1) && IsNLargest(ps, attr, n, r2)
    requires k <= |r1|
    ensures r1[..k] == r2[..k]
    decreases k
  {
    if k > 0 {
      PrefixesAgree(ps, attr, n, r1, r2, k - 1);
      PlaceBefore(ps, attr, n, r1, r2, k - 1);
      PlaceBefore(ps, attr, n, r2, r1, k - 1);
      ListedBeforeAntisymmetric(ps, attr, r1[k - 1], r2[k - 1]);
      assert r1[..k] == r1[..k - 1] + [r1[k - 1]];
      assert r2[..k] == r2[..k - 1] + [r2[k - 1]];
    }
  }

  /** The promise determines the list: any list that keeps it is the one
      `NLargest` returns. */
  lemma NLargestUnique(ps: seq<Player>, attr: string, n: nat, r: seq<nat>)
    requires IsNLargest(ps, attr, n, r)
    ensures r == NLargest(ps, attr, n)
  {
    var q := NLargest(ps, attr, n);
    PrefixesAgree(ps, attr, n, r, q, |r|);
    assert r[..|r|] == r && q[..|q|] == q;
  }

  /** Of two rows with the same value, the later one is never listed
      without the earlier one. */
  lemma EarlierRowWinsTie(ps: seq<Player>, attr: string, n: nat, i: nat, j: nat)
    requires i < j < |ps| && HasStat(ps[i], attr) && Stat(ps[i], attr) == Stat(ps[j], attr)
    ensures j in NLargest(ps, attr, n) ==> i in NLargest(ps, attr, n)
  {
    var r := NLargest(ps, attr, n);
    if j in r {
      var k :| 0 <= k < |r| && r[k] == j;
    }
  }

  /** Rows without a value come after every row with one, and appear
      only once every row with a value is listed, earliest row first:
      they fill up a list the rows with a value cannot. */
  lemma MissingValuesFillUp(ps: seq<Player>, attr: string, n: nat)
    ensures var r := NLargest(ps, attr, n);
      forall a, b :: 0 <= a < b < |r| && Valued(ps, attr, r[b]) ==> Valued(ps, attr, r[a])
    ensures var r := NLargest(ps, attr, n);
      forall k, i :: 0 <= k < |r| && !Valued(ps, attr, r[k]) && Valued(ps, attr, i) ==> i in r
    ensures var r := NLargest(ps, attr, n);
      forall k, i :: 0 <= k < |r| && !Valued(ps, attr, r[k]) && i < r[k] ==> i in r
  {
  }

  /** The list is empty only when no rows are asked for or none is
      eligible. */
  lemma EmptyOnlyWithoutRows(ps: seq<Player>, attr: string, n: nat)
    ensures NLargest(ps, attr, n) == [] <==> n == 0 || |ps| == 0
  {
  }

  // ---------------------------------------------------------------------
  // Per-position statistics

  datatype Bounds = Bounds(min: real, max: real)

  /** One row of `groupby('general_position')[attr].describe()`: how many
      members have a value, and the smallest and largest value (absent
      when no member has one). */
  datatype GroupStats = GroupStats(position: GeneralPosition, count: nat, bounds: Option<Bounds>)

  /** pandas orders the groups by their label: Atacante, Defensor,
      Goleiro, Meio-campista, Outro. */
  const GroupOrder: seq<GeneralPosition> := [Forward, Defender, Goalkeeper, Midfielder, Other]

  /** The values of `attr` among the members of group `g`, in row order. */
  function GroupValues(ps: seq<Player>, attr: string, g: GeneralPosition): (vs: seq<real>)
    ensures |vs| <= |ps|
  {
    if |ps| == 0 then []
    else
      var rest := GroupValues(ps[1..], attr, g);
      if ps[0].general == g && HasStat(ps[0], attr) then [Stat(ps[0], attr).value] + rest else rest
  }

  /** Every value of a group comes from a member of the group... */
  lemma {:induction false} GroupValueSource(ps: seq<Player>, attr: string, g: GeneralPosition, k: nat) returns (i: nat)
    requires k < |GroupValues(ps, attr, g)|
    ensures i < |ps| && ps[i].general == g && Stat(ps[i], attr) == Some(GroupValues(ps, attr, g)[k])
  {
    var rest := GroupValues(ps[1..], attr, g);
    if ps[0].general == g && HasStat(ps[0], attr) && k == 0 {
      i := 0;
    } else {
      var k' := if ps[0].general == g && HasStat(ps[0], attr) then k - 1 else k;
      assert GroupValues(ps, attr, g)[k] == rest[k'];
      var j := GroupValueSource(ps[1..], attr, g, k');
      assert ps[1..][j] == ps[j + 1];
      i := j + 1;
    }
  }

  /** ...and every member with a value contributes it. */
  lemma {:induction false} GroupValueIncluded(ps: seq<Player>, attr: string, g: GeneralPosition, i: nat)
    requires i < |ps| && ps[i].general == g && HasStat(ps[i], attr)
    ensures Stat(ps[i], attr).value in GroupValues(ps, attr, g)
  {
    if i > 0 {
      assert ps[1..][i - 1] == ps[i];
      GroupValueIncluded(ps[1..], attr, g, i - 1);
    }
  }

  /** `s` summarizes the members of its group: its count is their number
      of values, and its bounds are their smallest and largest value. */
  predicate Summarizes(s: GroupStats, ps: seq<Player>, attr: string)
  {
    && s.count == |GroupValues(ps, attr, s.position)|
    && (s.bounds.Some? <==> s.count > 0)
    && (s.bounds.Some? ==> s.bounds.value.min <= s.bounds.value.max)
    && (s.bounds.Some? ==> forall i :: 0 <= i < |ps| && ps[i].general == s.position && HasStat(ps[i], attr) ==>
          s.bounds.value.min <= Stat(ps[i], attr).value <= s.bounds.value.max)
    && (s.bounds.Some? ==>
          && (exists i :: 0 <= i < |ps| && ps[i].general == s.position && Stat(ps[i], attr) == Some(s.bounds.value.min))
          && (exists i :: 0 <= i < |ps| && ps[i].general == s.position && Stat(ps[i], attr) == Some(s.bounds.value.max)))
    && (s.bounds.None? ==> forall i :: 0 <= i < |ps| && ps[i].general == s.position ==> !HasStat(ps[i], attr))
  }

  function StatsOf(ps: seq<Player>, attr: string, g: GeneralPosition): (s: GroupStats)
    ensures s.position == g
    ensures Summarizes(s, ps, attr)
  {
    var vs := GroupValues(ps, attr, g);
    if |vs| == 0 then
      NoValuesNoStats(ps, attr, g);
      GroupStats(g, 0, None)
    else
      var s := GroupStats(g, |vs|, Some(Bounds(Seqs.Min(vs), Seqs.Max(vs))));
      BoundsSummarize(ps, attr, g, s);
      s
  }

  lemma NoValuesNoStats(ps: seq<Player>, attr: string, g: GeneralPosition)
    requires GroupValues(ps, attr, g) == []
    ensures forall i :: 0 <= i < |ps| && ps[i].general == g ==> !HasStat(ps[i], attr)
  {
    forall i | 0 <= i < |ps| && ps[i].general == g ensures !HasStat(ps[i], attr) {
      if HasStat(ps[i], attr) {
        GroupValueIncluded(ps, attr, g, i);
      }
    }
  }

  lemma BoundsSummarize(ps: seq<Player>, attr: string, g: GeneralPosition, s: GroupStats)
    requires |GroupValues(ps, attr, g)| > 0
    requires s == GroupStats(g, |GroupValues(ps, attr, g)|,
      Some(Bounds(Seqs.Min(GroupValues(ps, attr, g)), Seqs.Max(GroupValues(ps, attr, g)))))
    ensures Summarizes(s, ps, attr)
  {
    var vs := GroupValues(ps, attr, g);
    var lo, hi := Seqs.Min(vs), Seqs.Max(vs);
    forall i | 0 <= i < |ps| && ps[i].general == g && HasStat(ps[i], attr)
      ensures lo <= Stat(ps[i], attr).value <= hi
    {
      GroupValueIncluded(ps, attr, g, i);
    }
    var a :| 0 <= a < |vs| && vs[a] == lo;
    var ia := GroupValueSource(ps, attr, g, a);
    var b :| 0 <= b < |vs| && vs[b] == hi;
    var ib := GroupValueSource(ps, attr, g, b);
  }

  predicate HasMember(ps: seq<Player>, g: GeneralPosition)
  {
    exists i :: 0 <= i < |ps| && ps[i].general == g
  }

  function Positions(r: seq<GroupStats>): (gs: seq<GeneralPosition>)
    ensures |gs| == |r|
    ensures forall k :: 0 <= k < |r| ==> gs[k] == r[k].position
  {
    seq(|r|, k requires 0 <= k < |r| => r[k].position)
  }

  function GroupsFrom(ps: seq<Player>, attr: string, from: nat): (r: seq<GroupStats>)
    requires from <= |GroupOrder|
    ensures forall k :: 0 <= k < |r| ==> r[k] == StatsOf(ps, attr, r[k].position) && HasMember(ps, r[k].position)
    decreases |GroupOrder| - from
  {
    if from == |GroupOrder| then []
    else
      var g := GroupOrder[from];
      var rest := GroupsFrom(ps, attr, from + 1);
      if HasMember(ps, g) then [StatsOf(ps, attr, g)] + rest else rest
  }

  /** The positions of the entries built from `from` on: the group at
      `from` when it has members, then those of the later groups. */
  lemma GroupsFromPositions(ps: seq<Player>, attr: string, from: nat)
    requires from < |GroupOrder|
    ensures Positions(GroupsFrom(ps, attr, from)) ==
      (if HasMember(ps, GroupOrder[from]) then [GroupOrder[from]] else []) + Positions(GroupsFrom(ps, attr, from + 1))
  {
    var g := GroupOrder[from];
    if HasMember(ps, g) {
      PositionsCons(StatsOf(ps, attr, g), GroupsFrom(ps, attr, from + 1));
    } else {
      assert [] + Positions(GroupsFrom(ps, attr, from + 1)) == Positions(GroupsFrom(ps, attr, from + 1));
    }
  }

  lemma PositionsCons(s: GroupStats, rest: seq<GroupStats>)
    ensures Positions([s] + rest) == [s.position] + Positions(rest)
  {
    assert forall k :: 0 < k < |rest| + 1 ==> ([s] + rest)[k] == rest[k - 1];
  }

  /** The groups come out in `GroupOrder`. */
  lemma {:induction false} GroupsFromOrdered(ps: seq<Player>, attr: string, from: nat)
    requires from <= |GroupOrder|
    ensures Seqs.IsSubseq(Positions(GroupsFrom(ps, attr, from)), GroupOrder[from..])
    decreases |GroupOrder| - from
  {
    if from < |GroupOrder| {
      var g := GroupOrder[from];
      var later := Positions(GroupsFrom(ps, attr, from + 1));
      GroupsFromOrdered(ps, attr, from + 1);
      GroupsFromPositions(ps, attr, from);
      assert GroupOrder[from..][0] == g;
      assert GroupOrder[from..][1..] == GroupOrder[from + 1..];
      if HasMember(ps, g) {
        assert ([g] + later)[1..] == later;
      } else {
        assert [] + later == later;
        Seqs.SubseqDropHead(later, GroupOrder[from..]);
      }
    }
  }

  /** Every group from `from` on that has members gets an entry. */
  lemma {:induction false} GroupsFromComplete(ps: seq<Player>, attr: string, from: nat, j: nat)
    requires from <= j < |GroupOrder| && HasMember(ps, GroupOrder[j])
    ensures GroupOrder[j] in Positions(GroupsFrom(ps, attr, from))
    decreases j - from
  {
    GroupsFromPositions(ps, attr, from);
    if j > from {
      GroupsFromComplete(ps, attr, from + 1, j);
    }
  }

  /** The per-position table: one entry per position that has members,
      each summarising its members, in label order. */
  predicate DescribesPositions(r: seq<GroupStats>, ps: seq<Player>, attr: string)
  {
    && (forall k :: 0 <= k < |r| ==>
          Summarizes(r[k], ps, attr))
    && (forall g :: g in Positions(r) <==> HasMember(ps, g))
    && Seqs.IsSubseq(Positions(r), GroupOrder)
  }

  function PositionStats(ps: seq<Player>, attr: string): (r: seq<GroupStats>)
    ensures DescribesPositions(r, ps, attr)
  {
    assert GroupOrder[0..] == GroupOrder;
    var r := GroupsFrom(ps, attr, 0);
    GroupsFromOrdered(ps, attr, 0);
    forall g | HasMember(ps, g) ensures g in Positions(r) {
      var j :| 0 <= j < |GroupOrder| && GroupOrder[j] == g;
      GroupsFromComplete(ps, attr, 0, j);
    }
    r
  }

  /** The group order is the code-point order of the labels, as pandas
      sorts group keys. */
  lemma GroupOrderFollowsLabels()
    ensures forall i, j :: 0 <= i < j < |GroupOrder| ==>
      CodePointLe(GroupOrder[i].Label(), GroupOrder[j].Label()) && GroupOrder[i].Label() != GroupOrder[j].Label()
  {
  }

  function SumCounts(r: seq<GroupStats>): nat
  {
    if |r| == 0 then 0 else r[0].count + SumCounts(r[1..])
  }

  /** How many values the groups in `gs` hold between them. */
  function ValuesInGroups(ps: seq<Player>, attr: string, gs: seq<GeneralPosition>): nat
  {
    if |gs| == 0 then 0 else |GroupValues(ps, attr, gs[0])| + ValuesInGroups(ps, attr, gs[1..])
  }

  lemma {:induction false} GroupsFromCounts(ps: seq<Player>, attr: string, from: nat)
    requires from <= |GroupOrder|
    ensures SumCounts(GroupsFrom(ps, attr, from)) == ValuesInGroups(ps, attr, GroupOrder[from..])
    decreases |GroupOrder| - from
  {
    if from < |GroupOrder| {
      GroupsFromCounts(ps, attr, from + 1);
      var g := GroupOrder[from];
      assert GroupOrder[from..][0] == g;
      assert GroupOrder[from..][1..] == GroupOrder[from + 1..];
      if !HasMember(ps, g) {
        NoMembersNoValues(ps, attr, g);
      }
    }
  }

  lemma NoMembersNoValues(ps: seq<Player>, attr: string, g: GeneralPosition)
    requires !HasMember(ps, g)
    ensures GroupValues(ps, attr, g) == []
  {
  }

  lemma ValuesInAllGroups(ps: seq<Player>, attr: string)
    ensures ValuesInGroups(ps, attr, GroupOrder) ==
      |GroupValues(ps, attr, Forward)| + |GroupValues(ps, attr, Defender)|
      + |GroupValues(ps, attr, Goalkeeper)| + |GroupValues(ps, attr, Midfielder)|
      + |GroupValues(ps, attr, Other)|
  {
    var g1: seq<GeneralPosition> := [Defender, Goalkeeper, Midfielder, Other];
    var g2: seq<GeneralPosition> := [Goalkeeper, Midfielder, Other];
    var g3: seq<GeneralPosition> := [Midfielder, Other];
    var g4: seq<GeneralPosition> := [Other];
    assert GroupOrder[1..] == g1 && g1[1..] == g2 && g2[1..] == g3 && g3[1..] == g4 && g4[1..] == [];
    assert ValuesInGroups(ps, attr, g4) == |GroupValues(ps, attr, Other)|;
    assert ValuesInGroups(ps, attr, g3) == |GroupValues(ps, attr, Midfielder)| + ValuesInGroups(ps, attr, g4);
    assert ValuesInGroups(ps, attr, g2) == |GroupValues(ps, attr, Goalkeeper)| + ValuesInGroups(ps, attr, g3);
    assert ValuesInGroups(ps, attr, g1) == |GroupValues(ps, attr, Defender)| + ValuesInGroups(ps, attr, g2);
  }

  /** The members of group `g` that have a value for `attr`. */
  function InGroupWithStat(attr: string, g: GeneralPosition): Player -> bool
  {
    (p: Player) => p.general == g && HasStat(p, attr)
  }

  /** A group collects one value per member that has one, so its count
      is the number of such members. */
  lemma {:induction false} GroupValuesCount(ps: seq<Player>, attr: string, g: GeneralPosition)
    ensures |GroupValues(ps, attr, g)| == |Seqs.Filter(InGroupWithStat(attr, g), ps)|
    decreases |ps|
  {
    if |ps| > 0 {
      GroupValuesCount(ps[1..], attr, g);
    }
  }

  /** Every row with a value lands in exactly one group. */
  lemma {:induction false} GroupsPartitionValues(ps: seq<Player>, attr: string)
    ensures |GroupValues(ps, attr, Forward)| + |GroupValues(ps, attr, Defender)|
      + |GroupValues(ps, attr, Goalkeeper)| + |GroupValues(ps, attr, Midfielder)|
      + |GroupValues(ps, attr, Other)| == |Seqs.Filter(HasStatMask(attr), ps)|
  {
    if |ps| > 0 {
      GroupsPartitionValues(ps[1..], attr);
    }
  }

  /** The group counts add up to the number of eligible rows that have a
      value. */
  lemma PositionCountsAddUp(ps: seq<Player>, attr: string)
    ensures SumCounts(PositionStats(ps, attr)) == |Seqs.Filter(HasStatMask(attr), ps)|
  {
    GroupsFromCounts(ps, attr, 0);
    assert GroupOrder[0..] == GroupOrder;
    ValuesInAllGroups(ps, attr);
    GroupsPartitionValues(ps, attr);
  }

  /** What the rankings page computes for one attribute: the thresholded
      table, the row numbers `nlargest` lists, and the per-position
      statistics. */
  datatype Ranking = Ranking(eligible: seq<Player>, top: seq<nat>, groups: seq<GroupStats>)

  /** The rankings page for attribute `attr` (a choice of
      `RankableColumns`), a minutes threshold and a list length `n`. */
  function Rank(t: Table, attr: string, minMinutes: int, n: nat): (r: Result<Ranking, RankError>)
    ensures r.Err? <==> KindOf(t.columns, MinutesColumn) == Some(NonNumeric)
    ensures r.Ok? ==> Eligible(t, minMinutes) == Ok(r.value.eligible)
    ensures r.Ok? ==> IsNLargest(r.value.eligible, attr, n, r.value.top)
    ensures r.Ok? ==> DescribesPositions(r.value.groups, r.value.eligible, attr)
    ensures r.Ok? ==> SumCounts(r.value.groups) == |Seqs.Filter(HasStatMask(attr), r.value.eligible)|
  {
    match Eligible(t, minMinutes)
    case Err(e) => Err(e)
    case Ok(eligible) =>
      PositionCountsAddUp(eligible, attr);
      Ok(Ranking(eligible, NLargest(eligible, attr, n), PositionStats(eligible, attr)))
  }
}

=== FILE: search.dfy ===
/** The scout search: identification filters and one inclusive range per
    catalogued attribute, combined with AND, applied as successive
    order-preserving masks exactly as the search handler does. */
module Search {
  import opened Wrappers
  import opened Players
  import opened Text
  import Seqs

  /** A slider range; pandas' `between` includes both ends. */
  datatype Interval = Interval(lo: real, hi: real)

  /** What the filter form submits.  An empty list means "no
      restriction"; a statistic column absent from `ranges` is not
      filtered. */
  datatype Criteria = Criteria(
    ageLo: int,
    ageHi: int,
    nationalities: seq<string>,
    positions: seq<string>,
    clubs: seq<string>,
    ranges: map<string, Interval>)

  /** `field.str.contains('|'.join(re.escape(n) for n in needles), na=False)`:
      the escaped alternatives match a literal occurrence of any needle,
      and a missing field never matches. */
  predicate MatchesAny(field: Option<string>, needles: seq<string>)
  {
    field.Some? && exists k :: 0 <= k < |needles| && Contains(field.value, needles[k])
  }

  /** `df[col].between(lo, hi)`: a missing value is outside every range. */
  predicate StatInRange(p: Player, col: string, iv: Interval)
  {
    Stat(p, col).Some? && iv.lo <= Stat(p, col).value <= iv.hi
  }

  // The individual masks of the search handler.

  function AgeMask(lo: int, hi: int): Player -> bool
  {
    (p: Player) => lo <= p.age <= hi
  }

  function NationalityMask(needles: seq<string>): Player -> bool
  {
    (p: Player) => MatchesAny(p.record.nationality, needles)
  }

  function PositionMask(needles: seq<string>): Player -> bool
  {
    (p: Player) => MatchesAny(p.record.position, needles)
  }

  function ClubMask(clubs: seq<string>): Player -> bool
  {
    (p: Player) => p.record.team.Some? && p.record.team.value in clubs
  }

  function RangeMask(col: string, iv: Interval): Player -> bool
  {
    (p: Player) => StatInRange(p, col, iv)
  }

  /** The range filters, one column at a time, for the catalogued columns
      that have a range. */
  function ApplyRanges(ps: seq<Player>, cols: seq<string>, ranges: map<string, Interval>): seq<Player>
    decreases |cols|
  {
    if |cols| == 0 then ps
    else
      var narrowed := if cols[0] in ranges then Seqs.Filter(RangeMask(cols[0], ranges[cols[0]]), ps) else ps;
      ApplyRanges(narrowed, cols[1..], ranges)
  }

  /** The search handler: the age mask, then the nationality, position and
      club masks when a selection was made, then every attribute range. */
  function RunSearch(ps: seq<Player>, statCols: seq<string>, c: Criteria): (r: seq<Player>)
    ensures r == Seqs.Filter(Keep(c, statCols), ps)
  {
    var byAge := Seqs.Filter(AgeMask(c.ageLo, c.ageHi), ps);
    var byNationality := if |c.nationalities| > 0 then Seqs.Filter(NationalityMask(c.nationalities), byAge) else byAge;
    var byPosition := if |c.positions| > 0 then Seqs.Filter(PositionMask(c.positions), byNationality) else byNationality;
    var byClub := if |c.clubs| > 0 then Seqs.Filter(ClubMask(c.clubs), byPosition) else byPosition;
    var r := ApplyRanges(byClub, statCols, c.ranges);
    SearchIsOneFilter(ps, statCols, c);
    r
  }

  /** The combined predicate: every criterion at once. */
  predicate Matches(c: Criteria, statCols: seq<string>, p: Player)
  {
    && c.ageLo <= p.age <= c.ageHi
    && (|c.nationalities| == 0 || MatchesAny(p.record.nationality, c.nationalities))
    && (|c.positions| == 0 || MatchesAny(p.record.position, c.positions))
    && (|c.clubs| == 0 || (p.record.team.Some? && p.record.team.value in c.clubs))
    && RangesHold(c.ranges, statCols, p)
  }

  predicate RangesHold(ranges: map<string, Interval>, cols: seq<string>, p: Player)
  {
    forall k :: 0 <= k < |cols| && cols[k] in ranges ==> StatInRange(p, cols[k], ranges[cols[k]])
  }

  function Keep(c: Criteria, statCols: seq<string>): Player -> bool
  {
    (p: Player) => Matches(c, statCols, p)
  }

  function RangesMask(ranges: map<string, Interval>, cols: seq<string>): Player -> bool
  {
    (p: Player) => RangesHold(ranges, cols, p)
  }

  /** The successive range filters are one filter on all ranges together. */
  lemma {:induction false} ApplyRangesIsOneFilter(ps: seq<Player>, cols: seq<string>, ranges: map<string, Interval>)
    ensures ApplyRanges(ps, cols, ranges) == Seqs.Filter(RangesMask(ranges, cols), ps)
    decreases |cols|
  {
    if |cols| == 0 {
      Seqs.FilterKeepsAll(RangesMask(ranges, cols), ps);
    } else {
      var first := cols[0];
      var rest := cols[1..];
      forall p: Player ensures RangesHold(ranges, cols, p) ==
        ((first in ranges ==> StatInRange(p, first, ranges[first])) && RangesHold(ranges, rest, p))
      {
        if RangesHold(ranges, cols, p) {
          forall k | 0 <= k < |rest| && rest[k] in ranges
            ensures StatInRange(p, rest[k], ranges[rest[k]])
          {
            assert rest[k] == cols[k + 1];
          }
        }
        if (first in ranges ==> StatInRange(p, first, ranges[first])) && RangesHold(ranges, rest, p) {
          forall k | 0 <= k < |cols| && cols[k] in ranges
            ensures StatInRange(p, cols[k], ranges[cols[k]])
          {
            if k > 0 { assert cols[k] == rest[k - 1]; }
          }
        }
      }
      if first in ranges {
        var narrowed := Seqs.Filter(RangeMask(first, ranges[first]), ps);
        ApplyRangesIsOneFilter(narrowed, rest, ranges);
        Seqs.FilterFilter(RangeMask(first, ranges[first]), RangesMask(ranges, rest), RangesMask(ranges, cols), ps);
      } else {
        ApplyRangesIsOneFilter(ps, rest, ranges);
        Seqs.FilterExtensional(RangesMask(ranges, rest), RangesMask(ranges, cols), ps);
      }
    }
  }

  /** A mask applied only when its selection is non-empty is the same as
      a mask that passes everything when the selection is empty. */
  lemma OptionalMask(ps: seq<Player>, selected: bool, mask: Player -> bool, guarded: Player -> bool)
    requires forall p :: guarded(p) == (!selected || mask(p))
    ensures (if selected then Seqs.Filter(mask, ps) else ps) == Seqs.Filter(guarded, ps)
  {
    if selected {
      Seqs.FilterExtensional(mask, guarded, ps);
    } else {
      Seqs.FilterKeepsAll(guarded, ps);
    }
  }

  // The masks applied so far, as one predicate, after each stage.

  function UpToNationality(c: Criteria): Player -> bool
  {
    (p: Player) => c.ageLo <= p.age <= c.ageHi
      && (|c.nationalities| == 0 || MatchesAny(p.record.nationality, c.nationalities))
  }

  function UpToPosition(c: Criteria): Player -> bool
  {
    (p: Player) => UpToNationality(c)(p)
      && (|c.positions| == 0 || MatchesAny(p.record.position, c.positions))
  }

  function UpToClub(c: Criteria): Player -> bool
  {
    (p: Player) => UpToPosition(c)(p)
      && (|c.clubs| == 0 || (p.record.team.Some? && p.record.team.value in c.clubs))
  }

  lemma NationalityStage(ps: seq<Player>, c: Criteria)
    ensures
      var byAge := Seqs.Filter(AgeMask(c.ageLo, c.ageHi), ps);
      (if |c.nationalities| > 0 then Seqs.Filter(NationalityMask(c.nationalities), byAge) else byAge)
        == Seqs.Filter(UpToNationality(c), ps)
  {
    var natOk: Player -> bool := (p: Player) => |c.nationalities| == 0 || MatchesAny(p.record.nationality, c.nationalities);
    var byAge := Seqs.Filter(AgeMask(c.ageLo, c.ageHi), ps);
    OptionalMask(byAge, |c.nationalities| > 0, NationalityMask(c.nationalities), natOk);
    Seqs.FilterFilter(AgeMask(c.ageLo, c.ageHi), natOk, UpToNationality(c), ps);
  }

  lemma PositionStage(ps: seq<Player>, c: Criteria)
    ensures
      var before := Seqs.Filter(UpToNationality(c), ps);
      (if |c.positions| > 0 then Seqs.Filter(PositionMask(c.positions), before) else before)
        == Seqs.Filter(UpToPosition(c), ps)
  {
    var posOk: Player -> bool := (p: Player) => |c.positions| == 0 || MatchesAny(p.record.position, c.positions);
    var before := Seqs.Filter(UpToNationality(c), ps);
    OptionalMask(before, |c.positions| > 0, PositionMask(c.positions), posOk);
    Seqs.FilterFilter(UpToNationality(c), posOk, UpToPosition(c), ps);
  }

  lemma ClubStage(ps: seq<Player>, c: Criteria)
    ensures
      var before := Seqs.Filter(UpToPosition(c), ps);
      (if |c.clubs| > 0 then Seqs.Filter(ClubMask(c.clubs), before) else before)
        == Seqs.Filter(UpToClub(c), ps)
  {
    var clubOk: Player -> bool := (p: Player) => |c.clubs| == 0 || (p.record.team.Some? && p.record.team.value in c.clubs);
    var before := Seqs.Filter(UpToPosition(c), ps);
    OptionalMask(before, |c.clubs| > 0, ClubMask(c.clubs), clubOk);
    Seqs.FilterFilter(UpToPosition(c), clubOk, UpToClub(c), ps);
  }

  lemma RangeStage(ps: seq<Player>, statCols: seq<string>, c: Criteria)
    ensures ApplyRanges(Seqs.Filter(UpToClub(c), ps), statCols, c.ranges) == Seqs.Filter(Keep(c, statCols), ps)
  {
    ApplyRangesIsOneFilter(Seqs.Filter(UpToClub(c), ps), statCols, c.ranges);
    forall p: Player ensures Keep(c, statCols)(p) == (UpToClub(c)(p) && RangesMask(c.ranges, statCols)(p)) {
      assert UpToClub(c)(p) == (UpToPosition(c)(p) && (|c.clubs| == 0 || (p.record.team.Some? && p.record.team.value in c.clubs)));
      assert UpToPosition(c)(p) == (UpToNationality(c)(p) && (|c.positions| == 0 || MatchesAny(p.record.position, c.positions)));
    }
    Seqs.FilterFilter(UpToClub(c), RangesMask(c.ranges, statCols), Keep(c, statCols), ps);
  }

  /** The handler's successive masks select what the combined predicate
      selects. */
  lemma SearchIsOneFilter(ps: seq<Player>, statCols: seq<string>, c: Criteria)
    ensures
      var byAge := Seqs.Filter(AgeMask(c.ageLo, c.ageHi), ps);
      var byNationality := if |c.nationalities| > 0 then Seqs.Filter(NationalityMask(c.nationalities), byAge) else byAge;
      var byPosition := if |c.positions| > 0 then Seqs.Filter(PositionMask(c.positions), byNationality) else byNationality;
      var byClub := if |c.clubs| > 0 then Seqs.Filter(ClubMask(c.clubs), byPosition) else byPosition;
      ApplyRanges(byClub, statCols, c.ranges) == Seqs.Filter(Keep(c, statCols), ps)
  {
    NationalityStage(ps, c);
    PositionStage(ps, c);
    ClubStage(ps, c);
    RangeStage(ps, statCols, c);
  }

  /** A row is in the result exactly when it is in the table and meets
      every criterion, and the result keeps the table's order. */
  lemma SearchResult(ps: seq<Player>, statCols: seq<string>, c: Criteria, p: Player)
    ensures p in RunSearch(ps, statCols, c) <==> p in ps && Matches(c, statCols, p)
    ensures Seqs.IsSubseq(RunSearch(ps, statCols, c), ps)
  {
    Seqs.FilterMembership(Keep(c, statCols), ps, p);
    Seqs.FilterIsSubseq(Keep(c, statCols), ps);
  }

  /** A row missing a value for a column that has a range is never found. */
  lemma MissingValueExcluded(ps: seq<Player>, statCols: seq<string>, c: Criteria, p: Player, k: nat)
    requires k < |statCols| && statCols[k] in c.ranges && Stat(p, statCols[k]).None?
    ensures p !in RunSearch(ps, statCols, c)
  {
    SearchResult(ps, statCols, c, p);
  }

  /** With no selections, no ranges and an age range covering everyone,
      the search returns the whole table. */
  lemma DefaultCriteriaKeepAll(ps: seq<Player>, statCols: seq<string>, lo: int, hi: int)
    requires forall k :: 0 <= k < |ps| ==> lo <= ps[k].age <= hi
    ensures RunSearch(ps, statCols, Criteria(lo, hi, [], [], [], map[])) == ps
  {
    Seqs.FilterKeepsAll(Keep(Criteria(lo, hi, [], [], [], map[]), statCols), ps);
  }
}

=== FILE: seqs.dfy ===
/** Generic facts about sequences: the stable filter that every pandas
    boolean mask in app.py amounts to, subsequences, and the minimum
    and maximum of a non-empty sequence of reals. */
module Seqs {

  /** `r` can be obtained from `s` by deleting elements, keeping the order
      of the rest.  Greedy matching decides this exactly. */
  predicate IsSubseq<T(==)>(r: seq<T>, s: seq<T>)
    decreases |s|
  {
    if |r| == 0 then true
    else if |s| == 0 then false
    else if r[0] == s[0] then IsSubseq(r[1..], s[1..])
    else IsSubseq(r, s[1..])
  }

  /** Keeps, in their original order, exactly the elements satisfying `p`
      (a pandas `df[mask]`). */
  function Filter<T(!new)>(p: T -> bool, s: seq<T>): (r: seq<T>)
    ensures |r| <= |s|
    ensures forall k :: 0 <= k < |r| ==> p(r[k])
  {
    if |s| == 0 then []
    else if p(s[0]) then [s[0]] + Filter(p, s[1..]) else Filter(p, s[1..])
  }

  /** Each element passing `p` is kept as often as it occurs; the others
      are gone. */
  lemma {:induction false} FilterCount<T(!new)>(p: T -> bool, s: seq<T>)
    ensures forall x :: multiset(Filter(p, s))[x] == if p(x) then multiset(s)[x] else 0
    decreases |s|
  {
    if |s| > 0 {
      FilterCount(p, s[1..]);
      assert s == [s[0]] + s[1..];
    }
  }

  /** Membership in a filter result, both directions. */
  lemma FilterMembership<T(!new)>(p: T -> bool, s: seq<T>, x: T)
    ensures x in Filter(p, s) <==> x in s && p(x)
  {
    var r := Filter(p, s);
    FilterCount(p, s);
    assert x in r <==> multiset(r)[x] > 0;
    assert x in s <==> multiset(s)[x] > 0;
  }

  /** A filter result is a subsequence of its input: no row is invented
      and no two rows change places. */
  lemma {:induction false} FilterIsSubseq<T(!new)>(p: T -> bool, s: seq<T>)
    ensures IsSubseq(Filter(p, s), s)
    decreases |s|
  {
    if |s| > 0 {
      FilterIsSubseq(p, s[1..]);
      if !p(s[0]) {
        SubseqDropHead(Filter(p, s), s);
      } else {
        var r := Filter(p, s);
        assert r[0] == s[0] && r[1..] == Filter(p, s[1..]);
      }
    }
  }

  /** Skipping one leading element of the larger sequence keeps a
      subsequence relation. */
  lemma {:induction false} SubseqDropHead<T>(r: seq<T>, s: seq<T>)
    requires |s| > 0 && IsSubseq(r, s[1..])
    ensures IsSubseq(r, s)
    decreases |s|, 0
  {
    if |r| > 0 && r[0] == s[0] {
      SubseqTail(r, s[1..]);
    }
  }

  /** Dropping the head of a subsequence keeps it a subsequence. */
  lemma {:induction false} SubseqTail<T>(r: seq<T>, s: seq<T>)
    requires |r| > 0 && IsSubseq(r, s)
    ensures IsSubseq(r[1..], s)
    decreases |s|, 1
  {
    assert |s| > 0;
    if r[0] == s[0] {
      SubseqDropHead(r[1..], s);
    } else {
      SubseqTail(r, s[1..]);
      SubseqDropHead(r[1..], s);
    }
  }

  /** No element occurs twice. */
  predicate Distinct<T(==)>(s: seq<T>)
  {
    forall i, j :: 0 <= i < j < |s| ==> s[i] != s[j]
  }

  /** A subsequence holds each element at most as often as the sequence
      does. */
  lemma {:induction false} SubseqCount<T>(r: seq<T>, s: seq<T>)
    requires IsSubseq(r, s)
    ensures multiset(r) <= multiset(s)
    decreases |s|
  {
    if |r| > 0 {
      assert s == [s[0]] + s[1..];
      if r[0] == s[0] {
        SubseqCount(r[1..], s[1..]);
        assert r == [r[0]] + r[1..];
      } else {
        SubseqCount(r, s[1..]);
      }
    }
  }

  /** In a sequence free of repeats no element counts twice... */
  lemma {:induction false} DistinctCountsOnce<T>(s: seq<T>)
    requires Distinct(s)
    ensures forall x :: multiset(s)[x] <= 1
    decreases |s|
  {
    if |s| > 0 {
      var t := s[1..];
      assert Distinct(t) by {
        forall i, j | 0 <= i < j < |t| ensures t[i] != t[j] {
          assert t[i] == s[i + 1] && t[j] == s[j + 1];
        }
      }
      DistinctCountsOnce(t);
      assert s == [s[0]] + t;
      forall k | 0 <= k < |t| ensures t[k] != s[0] {
        assert t[k] == s[k + 1];
      }
    }
  }

  /** ...and a sequence where no element counts twice is free of
      repeats. */
  lemma CountsOnceDistinct<T>(s: seq<T>)
    requires forall x :: multiset(s)[x] <= 1
    ensures Distinct(s)
  {
    forall i, j | 0 <= i < j < |s| ensures s[i] != s[j] {
      assert s == s[..j] + s[j..];
      assert s[..j][i] == s[i] && s[j..][0] == s[j];
      assert multiset(s[..j])[s[i]] >= 1 && multiset(s[j..])[s[j]] >= 1;
      assert multiset(s)[s[i]] == multiset(s[..j])[s[i]] + multiset(s[j..])[s[i]];
    }
  }

  /** Filtering a concatenation filters each part: rows of an earlier part
      of the table come out before rows of a later part. */
  lemma {:induction false} FilterAppend<T(!new)>(p: T -> bool, a: seq<T>, b: seq<T>)
    ensures Filter(p, a + b) == Filter(p, a) + Filter(p, b)
    decreases |a|
  {
    if |a| > 0 {
      assert (a + b)[1..] == a[1..] + b;
      FilterAppend(p, a[1..], b);
    } else {
      assert a + b == b;
    }
  }

  /** Two successive filters are one filter on the conjunction. */
  lemma {:induction false} FilterFilter<T(!new)>(p: T -> bool, q: T -> bool, pq: T -> bool, s: seq<T>)
    requires forall x :: pq(x) == (p(x) && q(x))
    ensures Filter(q, Filter(p, s)) == Filter(pq, s)
    decreases |s|
  {
    if |s| > 0 {
      FilterFilter(p, q, pq, s[1..]);
    }
  }

  /** A filter that every element passes changes nothing. */
  lemma {:induction false} FilterKeepsAll<T(!new)>(p: T -> bool, s: seq<T>)
    requires forall k :: 0 <= k < |s| ==> p(s[k])
    ensures Filter(p, s) == s
    decreases |s|
  {
    if |s| > 0 {
      FilterKeepsAll(p, s[1..]);
    }
  }

  /** A filter that no element passes leaves nothing. */
  lemma {:induction false} FilterDropsAll<T(!new)>(p: T -> bool, s: seq<T>)
    requires forall k :: 0 <= k < |s| ==> !p(s[k])
    ensures Filter(p, s) == []
    decreases |s|
  {
    if |s| > 0 {
      FilterDropsAll(p, s[1..]);
    }
  }

  /** Filtering a block whose elements all pass, followed by a part none
      of whose elements pass, gives back the block. */
  lemma FilterPicksBlock<T(!new)>(p: T -> bool, block: seq<T>, rest: seq<T>)
    requires forall k :: 0 <= k < |block| ==> p(block[k])
    requires Filter(p, rest) == []
    ensures Filter(p, block + rest) == block
  {
    FilterAppend(p, block, rest);
    FilterKeepsAll(p, block);
    assert block + [] == block;
  }

  /** A leading block none of whose elements pass does not show in the
      filter. */
  lemma FilterSkipsBlock<T(!new)>(p: T -> bool, block: seq<T>, rest: seq<T>)
    requires forall k :: 0 <= k < |block| ==> !p(block[k])
    ensures Filter(p, block + rest) == Filter(p, rest)
  {
    FilterAppend(p, block, rest);
    FilterDropsAll(p, block);
    assert [] + Filter(p, rest) == Filter(p, rest);
  }

  /** Filters with pointwise-equal predicates agree. */
  lemma {:induction false} FilterExtensional<T(!new)>(p: T -> bool, q: T -> bool, s: seq<T>)
    requires forall k :: 0 <= k < |s| ==> p(s[k]) == q(s[k])
    ensures Filter(p, s) == Filter(q, s)
    decreases |s|
  {
    if |s| > 0 {
      FilterExtensional(p, q, s[1..]);
    }
  }

  /** Smallest element of a non-empty sequence. */
  function Min(s: seq<real>): (m: real)
    requires |s| > 0
    ensures m in s
    ensures forall k :: 0 <= k < |s| ==> m <= s[k]
  {
    if |s| == 1 then s[0]
    else
      var rest := Min(s[1..]);
      if s[0] <= rest then s[0] else rest
  }

  /** Largest element of a non-empty sequence. */
  function Max(s: seq<real>): (m: real)
    requires |s| > 0
    ensures m in s
    ensures forall k :: 0 <= k < |s| ==> s[k] <= m
  {
    if |s| == 1 then s[0]
    else
      var rest := Max(s[1..]);
      if rest <= s[0] then s[0] else rest
  }
}

=== FILE: sorting.dfy ===
/** Insertion sort by a total preorder: the sort behind Python's
    `sorted()` on strings and behind the order pandas lists the largest
    values in. */
module Sorting {

  /** `le` compares any two elements, and comparisons chain. */
  ghost predicate TotalPreorder<T(!new)>(le: (T, T) -> bool)
  {
    && (forall a, b :: le(a, b) || le(b, a))
    && (forall a, b, c :: le(a, b) && le(b, c) ==> le(a, c))
  }

  predicate SortedBy<T>(le: (T, T) -> bool, s: seq<T>)
  {
    forall i, j :: 0 <= i < j < |s| ==> le(s[i], s[j])
  }

  /** A lower bound of a list and of `x` bounds any rearrangement of the
      list with `x` added. */
  lemma LowerBoundKept<T>(le: (T, T) -> bool, y: T, x: T, s: seq<T>, r: seq<T>)
    requires multiset(r) == multiset(s) + multiset{x}
    requires le(y, x) && forall k :: 0 <= k < |s| ==> le(y, s[k])
    ensures forall k :: 0 <= k < |r| ==> le(y, r[k])
  {
    forall k | 0 <= k < |r| ensures le(y, r[k]) {
      assert r[k] in multiset(r);
      if r[k] != x {
        assert r[k] in multiset(s);
        var m :| 0 <= m < |s| && s[m] == r[k];
      }
    }
  }

  /** A sorted list stays sorted under a new head that bounds it. */
  lemma SortedCons<T>(le: (T, T) -> bool, y: T, r: seq<T>)
    requires SortedBy(le, r) && forall k :: 0 <= k < |r| ==> le(y, r[k])
    ensures SortedBy(le, [y] + r)
  {
    forall i, j | 0 <= i < j < |[y] + r| ensures le(([y] + r)[i], ([y] + r)[j]) {
      assert ([y] + r)[j] == r[j - 1];
      if i > 0 { assert ([y] + r)[i] == r[i - 1]; }
    }
  }

  /** Inserts `x` into a sorted list before the first element it is
      below. */
  function Insert<T(!new)>(le: (T, T) -> bool, x: T, s: seq<T>): (r: seq<T>)
    requires TotalPreorder(le) && SortedBy(le, s)
    ensures SortedBy(le, r)
    ensures multiset(r) == multiset(s) + multiset{x}
  {
    if |s| == 0 then [x]
    else if le(x, s[0]) then
      assert forall k :: 0 < k < |s| ==> le(x, s[k]) by {
        forall k | 0 < k < |s| ensures le(x, s[k]) {
          assert le(x, s[0]) && le(s[0], s[k]);
        }
      }
      SortedCons(le, x, s);
      [x] + s
    else
      assert le(s[0], x);
      var rest := Insert(le, x, s[1..]);
      assert s == [s[0]] + s[1..];
      LowerBoundKept(le, s[0], x, s[1..], rest);
      SortedCons(le, s[0], rest);
      [s[0]] + rest
  }

  /** The elements of `s`, rearranged into `le` order. */
  function SortBy<T(!new)>(le: (T, T) -> bool, s: seq<T>): (r: seq<T>)
    requires TotalPreorder(le)
    ensures SortedBy(le, r)
    ensures multiset(r) == multiset(s)
  {
    if |s| == 0 then []
    else
      assert s == [s[0]] + s[1..];
      Insert(le, s[0], SortBy(le, s[1..]))
  }
}

=== FILE: text.dfy ===
/** String operations app.py borrows from Python: `str.strip()`,
    the first field of `str.split(',')`, literal substring search (what a
    regex of escaped alternatives does), `str.startswith`, and the
    code-point order `sorted()` uses on strings. */
module Text {
  import Sorting

  /** Python's `str.isspace()` characters, which `str.strip()` removes. */
  predicate IsSpace(c: char)
  {
    || c == ' ' || c == '\t' || c == '\n' || c == '\r'
    || c == '\U{000B}' || c == '\U{000C}'
    || ('\U{001C}' <= c <= '\U{001F}')
    || c == '\U{0085}' || c == '\U{00A0}' || c == '\U{1680}'
    || ('\U{2000}' <= c <= '\U{200A}')
    || c == '\U{2028}' || c == '\U{2029}' || c == '\U{202F}'
    || c == '\U{205F}' || c == '\U{3000}'
  }

  predicate AllSpace(s: string)
  {
    forall k :: 0 <= k < |s| ==> IsSpace(s[k])
  }

  /** Where the leading whitespace of `s` ends. */
  function LeadingSpace(s: string): (i: nat)
    ensures i <= |s| && AllSpace(s[..i])
    ensures i < |s| ==> !IsSpace(s[i])
  {
    if |s| > 0 && IsSpace(s[0]) then
      var k := LeadingSpace(s[1..]);
      assert forall m :: 0 <= m < k ==> s[..k + 1][m + 1] == s[1..][..k][m];
      k + 1
    else 0
  }

  /** Where the trailing whitespace of `s` starts. */
  function TrailingSpace(s: string): (j: nat)
    ensures j <= |s| && AllSpace(s[j..])
    ensures 0 < j ==> !IsSpace(s[j - 1])
  {
    if |s| > 0 && IsSpace(s[|s| - 1]) then
      var t := s[..|s| - 1];
      var j := TrailingSpace(t);
      assert forall m :: 0 <= m < |t| - j ==> s[j..][m] == t[j..][m];
      j
    else |s|
  }

  /** Python's `s.strip()`: the part between the leading and the trailing
      whitespace. */
  function Trim(s: string): (r: string)
    ensures |r| > 0 ==> !IsSpace(r[0]) && !IsSpace(r[|r| - 1])
    ensures AllSpace(s) ==> r == []
  {
    var i := LeadingSpace(s);
    if i == |s| then []
    else
      var j := TrailingSpace(s);
      assert i < j;
      s[i..j]
  }

  /** A string whose two halves are whitespace is whitespace. */
  lemma AllSpaceJoin(s: string, i: nat)
    requires i <= |s| && AllSpace(s[..i]) && AllSpace(s[i..])
    ensures AllSpace(s)
  {
    forall k | 0 <= k < |s| ensures IsSpace(s[k]) {
      if k < i { assert s[..i][k] == s[k]; } else { assert s[i..][k - i] == s[k]; }
    }
  }

  /** The stripped string is determined by where the surrounding
      whitespace ends: whichever slice `s[i..j]` is bordered only by
      whitespace and neither starts nor ends with whitespace itself is
      what `Trim` returns. */
  lemma TrimIsCore(s: string, i: nat, j: nat)
    requires i <= j <= |s|
    requires AllSpace(s[..i]) && AllSpace(s[j..])
    requires i < j ==> !IsSpace(s[i]) && !IsSpace(s[j - 1])
    ensures Trim(s) == s[i..j]
  {
    if i < j {
      var a, b := LeadingSpace(s), TrailingSpace(s);
      assert a == i && b == j;
    } else {
      AllSpaceJoin(s, i);
    }
  }

  lemma AllSpaceConcat(a: string, b: string)
    requires AllSpace(a) && AllSpace(b)
    ensures AllSpace(a + b)
  {
    forall k | 0 <= k < |a + b| ensures IsSpace((a + b)[k]) {
      if k >= |a| { assert (a + b)[k] == b[k - |a|]; }
    }
  }

  /** Whitespace added around a string makes no difference once it is
      stripped. */
  lemma SurroundingSpaceIgnored(pre: string, s: string, post: string)
    requires AllSpace(pre) && AllSpace(post)
    ensures Trim(pre + s + post) == Trim(s)
  {
    var i := LeadingSpace(s);
    if i == |s| {
      assert s[..i] == s;
      AllSpaceConcat(pre, s);
      AllSpaceConcat(pre + s, post);
    } else {
      var j := TrailingSpace(s);
      assert i < j;
      PaddedCore(pre, s, post, i, j);
      TrimIsCore(s, i, j);
    }
  }

  lemma PaddedCore(pre: string, s: string, post: string, i: nat, j: nat)
    requires AllSpace(pre) && AllSpace(post)
    requires i < j <= |s|
    requires AllSpace(s[..i]) && AllSpace(s[j..]) && !IsSpace(s[i]) && !IsSpace(s[j - 1])
    ensures Trim(pre + s + post) == s[i..j]
  {
    PaddedSlices(pre, s, post, i, j);
    AllSpaceConcat(pre, s[..i]);
    AllSpaceConcat(s[j..], post);
    TrimIsCore(pre + s + post, |pre| + i, |pre| + j);
  }

  lemma PaddedSlices(pre: string, s: string, post: string, i: nat, j: nat)
    requires i < j <= |s|
    ensures (pre + s + post)[..|pre| + i] == pre + s[..i]
    ensures (pre + s + post)[|pre| + j..] == s[j..] + post
    ensures (pre + s + post)[|pre| + i..|pre| + j] == s[i..j]
    ensures (pre + s + post)[|pre| + i] == s[i] && (pre + s + post)[|pre| + j - 1] == s[j - 1]
  {
  }

  /** Stripping twice is stripping once. */
  lemma TrimIdempotent(s: string)
    ensures Trim(Trim(s)) == Trim(s)
  {
    var r := Trim(s);
    TrimIsCore(r, 0, |r|);
    assert r[0..|r|] == r;
  }

  /** The first comma-separated field of `s`: `s.split(',')[0]`. */
  function FirstField(s: string): (r: string)
    ensures r <= s
    ensures ',' !in r
    ensures |r| < |s| ==> s[|r|] == ','
  {
    if |s| == 0 || s[0] == ',' then [] else [s[0]] + FirstField(s[1..])
  }

  /** Whatever follows the first comma does not change the first field. */
  lemma {:induction false} FirstFieldIgnoresRest(a: string, b: string)
    requires ',' !in a
    ensures FirstField(a + "," + b) == a
    decreases |a|
  {
    if |a| == 0 {
      assert (a + "," + b)[0] == ',';
    } else {
      assert (a + "," + b)[1..] == a[1..] + "," + b;
      FirstFieldIgnoresRest(a[1..], b);
    }
  }

  /** A string without commas is its own first field. */
  lemma FirstFieldOfPlain(a: string)
    requires ',' !in a
    ensures FirstField(a) == a
  {
    var r := FirstField(a);
  }

  /** `needle` occurs as a contiguous part of `hay`. */
  predicate Contains(hay: string, needle: string)
    decreases |hay|
  {
    needle <= hay || (|hay| > 0 && Contains(hay[1..], needle))
  }

  /** An occurrence at any position makes `Contains` true, and `Contains`
      always has an occurrence to show for it. */
  lemma {:induction false} ContainsAt(hay: string, needle: string, i: nat)
    requires i <= |hay| && needle <= hay[i..]
    ensures Contains(hay, needle)
    decreases i
  {
    if i > 0 {
      assert hay[1..][i - 1..] == hay[i..];
      ContainsAt(hay[1..], needle, i - 1);
    } else {
      assert hay[0..] == hay;
    }
  }

  lemma {:induction false} ContainsHasOccurrence(hay: string, needle: string) returns (i: nat)
    requires Contains(hay, needle)
    ensures i <= |hay| && needle <= hay[i..]
    decreases |hay|
  {
    if needle <= hay {
      i := 0;
      assert hay[0..] == hay;
    } else {
      var j := ContainsHasOccurrence(hay[1..], needle);
      assert hay[1..][j..] == hay[j + 1..];
      i := j + 1;
    }
  }

  /** Lexicographic order on code points, the order of Python's `<=`
      on `str`. */
  predicate CodePointLe(a: string, b: string)
    decreases |a|
  {
    |a| == 0 || (|b| > 0 && (a[0] < b[0] || (a[0] == b[0] && CodePointLe(a[1..], b[1..]))))
  }

  lemma {:induction false} CodePointLeTotal(a: string, b: string)
    ensures CodePointLe(a, b) || CodePointLe(b, a)
    decreases |a|
  {
    if |a| > 0 && |b| > 0 && a[0] == b[0] {
      CodePointLeTotal(a[1..], b[1..]);
    }
  }

  lemma {:induction false} CodePointLeTransitive(a: string, b: string, c: string)
    requires CodePointLe(a, b) && CodePointLe(b, c)
    ensures CodePointLe(a, c)
    decreases |a|
  {
    if |a| > 0 && a[0] == b[0] && b[0] == c[0] {
      CodePointLeTransitive(a[1..], b[1..], c[1..]);
    }
  }

  lemma {:induction false} CodePointLeAntisymmetric(a: string, b: string)
    requires CodePointLe(a, b) && CodePointLe(b, a)
    ensures a == b
    decreases |a|
  {
    if |a| > 0 {
      CodePointLeAntisymmetric(a[1..], b[1..]);
      assert a == [a[0]] + a[1..] && b == [b[0]] + b[1..];
    }
  }

  predicate SortedStrings(s: seq<string>)
  {
    forall i, j :: 0 <= i < j < |s| ==> CodePointLe(s[i], s[j])
  }

  /** Python's string order as a comparison function. */
  function CodePointOrder(): (string, string) -> bool
  {
    (a: string, b: string) => CodePointLe(a, b)
  }

  lemma CodePointOrderIsTotal()
    ensures Sorting.TotalPreorder(CodePointOrder())
  {
    forall a: string, b: string ensures CodePointLe(a, b) || CodePointLe(b, a) {
      CodePointLeTotal(a, b);
    }
    forall a: string, b: string, c: string | CodePointLe(a, b) && CodePointLe(b, c)
      ensures CodePointLe(a, c)
    {
      CodePointLeTransitive(a, b, c);
    }
  }

  /** Python's `sorted()` on a list of strings. */
  function SortStrings(s: seq<string>): (r: seq<string>)
    ensures SortedStrings(r)
    ensures multiset(r) == multiset(s)
  {
    CodePointOrderIsTotal();
    Sorting.SortBy(CodePointOrder(), s)
  }
}

=== FILE: wrappers.dfy ===
/** Optional values and error-carrying results used throughout the model.
    `None` stands for pandas' missing value (NaN / NaT); `Err` stands for
    an exception the application would raise. */
module Wrappers {

  datatype Option<+T> = None | Some(value: T)

  datatype Result<+T, +E> = Ok(value: T) | Err(error: E)
}
